=== FILE: README.md ===
# vid_masher core in Dafny

vid_masher assembles a video that "says" a sentence out of clips of captioned
YouTube videos. Captions are normalised and split into words, and every word
is stored in a word index as `(caption_id, word, index, length)`. A query
sentence is normalised the same way. A planner then walks it left to right and
emits three kinds of action:

- a **clip** when a whole stored caption says the next words exactly;
- a **generate** action carrying the matcher's range list when no caption
  covers the run exactly;
- a **sythesize** action for a run of words the corpus does not hold.

The clip side maps each clip action to the caption's clip and each synthesis
action to text-to-speech clips of word pairs. Generate actions produce no clip.

The model has eight modules, one file each:

- `wrappers.dfy`, module `Wrappers`: `Option`.
- `seqs.dfy`, module `Seqs`: four facts about sequences, stated
  on named parts, that the other modules' proofs cite.
- `text.dfy`, module `Text`: Python's `str.split(' ')`, `' '.join` and
  `str.replace(c, '')` on `seq<char>`, with their round trips.
- `normalize.dfy`, module `Normalize`: `clean_caption_text`. Each regular
  expression pass is its own function, in the source's order, followed by
  `strip()` and `lower()`.
- `corpus.dfy`, module `Corpus`: the caption and word tables as immutable
  sequences. It covers the pure part of `insert_caption`, the `(vid_id, index)`
  uniqueness rule with its store invariant, and the two lookups the matcher
  issues.
- `matcher.dfy`, module `Matcher`: `max_word_range` and `lucky_check`.
- `planner.dfy`, module `Planner`: `generate_action_plan`. One turn of the
  cursor loop is `Step`. `Steps` is a table with one entry per query position:
  entry k is the action `Step` gives with the cursor at k. `PlanFrom` is the
  loop: it emits the table entry at the cursor and moves the cursor by that
  entry's span. The loop reads only the entries at the
  positions it stops at, and each entry depends only on its position, so the
  plan is the one the source builds turn by turn.
- `clips.dfy`, module `Clips`: `sythesize_words` and `acquire_clips`.

The lookups `find_text_range`, `find_existing_words`, `find_caption_info` and
`insert_syn` are called but not defined in src/database.py. The model defines
the first two; the other two are left out:

- `find_text_range` returns the word rows carrying a token, in stored order,
  optionally restricted to a set of `(caption_id, index)` pairs;
- `find_existing_words` returns the query words that have at least one row.

The planner and matcher take the word table as a parameter. Every property
that needs the table to be well formed takes `WellFormedRows` as a hypothesis:
positions are below the token count, and all rows of a caption agree on the
count. `Corpus.StoreRowsWellFormed` shows that every store built by
`InsertCaption` meets it.

## Model

| member | source | states |
|---|---|---|
| Text.Split | src/database.py:83 | `str.split(' ')` has one more part than the text has separators; no part holds a separator, and joining the parts with `Join` (`sep.join`) gives the text back |
| Text.SplitJoin | src/masher.py:110 | joining separator-free parts with `Join`, as `' '.join` does, and splitting again returns the parts |
| Text.Remove | src/database.py:85 | `replace('.', '')` leaves no period, shortens the text by the number of periods, and keeps every other character |
| Text.RemoveAppend | src/database.py:85 | deletion works on the two halves of any cut independently; with the one-character cases fixed by `Remove`'s contract, the kept characters stay in order |
| Text.RemoveThenSplit | src/masher.py:66-67 | deleting periods and then splitting (the query path) gives the parts of the text with periods deleted from each (the index path) |
| Normalize.CollapseWhitespace | src/utils.py:11 | the whitespace pass never lengthens the text, and a leading whitespace character becomes a plain space |
| Normalize.CollapseIsSingleSpaced | src/utils.py:5-11 | after the whitespace pass the only whitespace left is plain spaces, never two in a row |
| Normalize.CollapseKeepsNonSpace | src/utils.py:11 | the whitespace pass keeps every non-whitespace character, in order |
| Normalize.CollapseRun | src/utils.py:11 | a non-empty run of whitespace becomes exactly one space |
| Normalize.CollapseAppend | src/utils.py:11 | the whitespace pass works run by run: two halves cut outside a whitespace run collapse independently |
| Normalize.NearestCloser | src/utils.py:6 | the lazy `.*?` stops at the nearest closer `) ] }`, of any kind, before the next line break; with none there, no match |
| Normalize.StripAsides | src/utils.py:12 | the bracket pass never lengthens the text |
| Normalize.StripAsidesLeavesNoAside | src/utils.py:6-12 | after the bracket pass no opener has a closer after it on its line |
| Normalize.StripAsidesRemovesAside | src/utils.py:12 | an opener, a closer-free aside and a closer are deleted; the text before them is kept |
| Normalize.StripAsidesKeepsPrefix | src/utils.py:12 | text without openers passes the bracket pass verbatim |
| Normalize.StripAsidesKeepsUnmatched | src/utils.py:6-12 | an opener with no closer before the end of its line is kept, and the pass carries on right after it |
| Normalize.DropSpeaker | src/utils.py:7-13 | the speaker pass deletes everything up to and including the last colon of the first line; the result is a suffix; a colon-free first line is left alone; no colon stays on the first line |
| Normalize.KeepAllowed | src/utils.py:8-14 | the whitelist pass outputs only `[a-zA-Z0-9_' .]`, takes every character it outputs from the input (a sub-multiset), and leaves whitelisted text alone |
| Normalize.KeepAllowedAppend | src/utils.py:14 | the whitelist pass is a filter: it distributes over concatenation |
| Normalize.Strip | src/utils.py:16 | `strip()` returns the middle of the text; whitespace lies on both sides of it and it does not start or end with whitespace |
| Normalize.Lower | src/utils.py:16 | `lower()` maps each upper-case letter to lower case and keeps every other character, position by position |
| Normalize.Clean | src/utils.py:10-16 | the normaliser's output uses only `[a-z0-9_' .]`, has no leading or trailing space and is never longer than its input |
| Normalize.CleanKeepsNormal | src/utils.py:10-16 | text made of `[a-z0-9_' .]`, single-spaced and without a space at either end, is returned unchanged |
| Normalize.CleanNotIdempotent | src/utils.py:11-12 | "a (x) b" cleans to "a  b", with two spaces in a row, and cleaning that again gives "a b": a second run changes the output |
| Corpus.WordRows | src/database.py:80-86 | a normalised text of n space-separated tokens gives n rows, with the caption's id, positions 0..n-1, length n, and token k with its periods deleted; empty text gives no rows |
| Corpus.WordRowsSpellText | src/database.py:83-85 | the rows' tokens joined by spaces give the stored text with its periods deleted |
| Corpus.InsertCaption | src/database.py:62-90 | a taken `(vid_id, index)` key is rejected and leaves both tables unchanged. Otherwise the caption is stored with its raw text verbatim, text = `clean_caption_text(raw)`, `converted` false and priority 100, and its rows are appended. The id sequence advances either way |
| Corpus.InsertKeepsInv | src/database.py:42-90 | inserting keeps the store invariant: keys unique, ids increasing, stored text normalised, word table = the rows of the captions |
| Corpus.StoreRowsWellFormed | src/database.py:83-86 | in a store that keeps its invariant every row's position is below its length, and all rows of a caption agree on the length |
| Corpus.CaptionRowsStored | src/database.py:80-86 | the word table holds every row of every stored caption |
| Corpus.FindTextRange | src/masher.py:31-48 | the lookup returns exactly the rows with the token, restricted to the filter pairs when filters are given |
| Corpus.FindTextRangeAppend | src/masher.py:48-57 | the lookup keeps stored order: on two batches of rows it returns the first batch's hits, then the second's. This is the order `lucky_check` scans in |
| Corpus.FindTextRangeOne | src/masher.py:31-48 | a single row comes back exactly when it carries the token and, with filters, its pair is one of them |
| Corpus.FindTextRangeNonEmpty | src/masher.py:31-36 | the unfiltered lookup is non-empty exactly when some row carries the token |
| Corpus.FindExistingWords | src/masher.py:68-69 | a query word is reported exactly when some row carries it |
| Matcher.Successors | src/masher.py:43-46 | the filter pairs are exactly `(caption_id, index + 1)` of the level's rows |
| Matcher.Extend | src/masher.py:36-48 | the loop keeps only non-empty levels, at most one per remaining word; it is empty exactly when the level it starts from is, and that level comes first |
| Matcher.ExtendChains | src/masher.py:36-48 | each level after the first is the lookup of the next word, which is in the corpus, filtered by the successors of the level before. When the list stops early with the next word in the corpus, that word's filtered lookup is empty |
| Matcher.MaxWordRange | src/masher.py:28-50 | every level is non-empty and there are at most `len(words) - start` levels. The list is empty exactly when the start word has no row, and otherwise level 0 is the start word's rows |
| Matcher.MaxWordRangeIsRangeList | src/masher.py:28-50 | the list is a range list: every deeper level `d` has `db_words[start + d]` set and is the lookup of `words[start + d]` filtered by the successors of level `d - 1`. It stops early only when the next word is missing or its filtered lookup is empty |
| Matcher.LevelRowEndsRun | src/masher.py:40-48 | soundness: a row at level d ends d + 1 consecutive rows of its caption that spell `words[start..start + d + 1]` |
| Matcher.RunReachesLevel | src/masher.py:36-48 | completeness: d + 1 consecutive rows of one caption spelling the query from `start`, with the words after the first in the corpus, put the last row into level d |
| Matcher.FirstExact | src/masher.py:55-57 | none exactly when no row of the level has the wanted token count; otherwise a row of the level with that count |
| Matcher.FirstExactIsFirst | src/masher.py:55-57 | the row picked is the first in stored order: every row before it has another token count |
| Matcher.LuckyCheck | src/masher.py:52-63 | `None` exactly when no level d holds a row of length d + 1. Otherwise the hit has size d + 1 and names the first such row of level d, and no deeper level holds such a row |
| Planner.RunEnd | src/masher.py:95-97 | the inner loop stops at the first word in the corpus, or at the end, and every word it passes is missing from the corpus |
| Planner.Step | src/masher.py:77-103 | one turn of the loop stays within the query and emits a synthesis exactly when the word is missing from the corpus. It advances when the word is missing, or present and indexed. A word flagged present but without rows gives `generate` with no levels, which does not advance |
| Planner.StepsAdvance | src/masher.py:77-103 | when the flags are consistent with the rows, every turn advances the cursor by at least one word and stays within the query, so the loop ends |
| Planner.PlanFrom | src/masher.py:74-105 | for a table whose every entry advances, the loop ends, every action advances, and the spans add up to the words left |
| Planner.ExactLevelRowIsCaption | src/masher.py:55-62 | on well-formed rows a row of length n at level n - 1 ends a run that starts at position 0, so its caption is the n query words exactly |
| Planner.HitFits | src/masher.py:79-86 | a clip of size n covers n words that are all in the corpus, and its caption is exactly those words |
| Planner.StepFits | src/masher.py:77-103 | each action fits the words it consumes. A synthesis is a maximal run of missing words. A clip is a caption equal to its words. A generate action carries the whole range list from its position: present words, no exact level, and it stops only where the next word is missing or cannot extend the deepest level |
| Planner.StepsFit | src/masher.py:77-103 | on well-formed rows and consistent flags every entry of the table fits the words it would consume |
| Planner.PlanCovers | src/masher.py:74-105 | when every entry fits, the plan partitions the remaining words in order, without gaps or overlaps, into fitting actions |
| Planner.NoAdjacentSynthesize | src/masher.py:94-103 | in a covering plan two synthesis actions are never adjacent |
| Planner.LongestExactReuse | src/masher.py:78-86 | when a caption is exactly the next m words and all of them are in the corpus, the step is a clip of at least m words; no `generate` is emitted there |
| Planner.InCorpus | src/masher.py:68-69 | `db_words[k]` holds exactly when some row carries word k |
| Planner.QueryWords | src/masher.py:66-67 | the query has at least one word and none contains a space; joining them gives the cleaned query with periods deleted |
| Planner.GenerateActionPlan | src/masher.py:65-105 | with flags read off the same rows, the loop ends and its spans add up to the number of query words, each span at least one |
| Planner.PlanFor | src/masher.py:68-105 | the plan for a word list, flags read off the rows, consumes every word, each action at least one |
| Planner.GenerateActionPlanCovers | src/masher.py:65-105 | on well-formed rows the plan covers the query words in order |
| Planner.QueryWordsOfStoredCaption | src/masher.py:66-67 | querying a stored caption's raw text yields exactly the tokens of its word rows |
| Planner.StoredCaptionIsExact | src/database.py:80-86 | every stored caption with text is, token for token, its own word rows in the store |
| Planner.SelfQuery | src/masher.py:65-105 | querying a stored caption's raw text gives a single clip action over all its tokens |
| Clips.Pairs | src/masher.py:109-110 | ⌈n/2⌉ groups of one or two words, all but the last of two |
| Clips.PairsFlatten | src/masher.py:109-110 | the groups laid end to end give back the words |
| Clips.PairIsSlice | src/masher.py:109-110 | group k is the slice `words[2k:2k+2]`, clamped to the length |
| Clips.SythesizeWords | src/masher.py:107-118 | ⌈n/2⌉ synthesised clips, and clip k says `' '.join(words[2k:2k+2])` |
| Clips.SythesizeWordsSaysWords | src/masher.py:109-110 | for space-free words, cutting each synthesised clip's text at its spaces and laying the pieces end to end gives back the words |
| Clips.SynthVideoPath | src/masher.py:111 | the clip of a text is written under `videos/syn/` as `<text>.mp4`, and the text can be read back from the path |
| Clips.SynthVideoPathInjective | src/masher.py:111 | different texts go to different files, so naming a synthesised clip by its text, as `ClipRef` does, loses nothing |
| Clips.AcquireClips | src/masher.py:132-140 | one clip per clip action and ⌈n/2⌉ per synthesis of n words, in action order |
| Clips.AcquireClipsOfAction | src/masher.py:135-139 | a clip action contributes the clip of its caption, a synthesis action the clips `sythesize_words` makes for its words, a generate action nothing |
| Clips.AcquireClipsAppend | src/masher.py:135-140 | clip acquisition respects plan order: the clips of a concatenated plan are the concatenated clips |
| Clips.ActionClipOrigin | src/masher.py:135-139 | a caption clip of one action comes from a clip action for that caption; an action that is not a synthesis gives only caption clips |
| Clips.ClipsComeFromActions | src/masher.py:135-139 | every caption clip comes from a clip action for that caption, and a plan without synthesis yields caption clips only |
| Clips.GenerateYieldsNoClips | src/masher.py:136-139 | dropping the generate actions leaves the clips unchanged |

## Left out

- Media and file I/O are left out because they are filesystem and shell effects outside a functional model:
  - `Masher.__init__` and the logging;
  - `fetch_clip`'s file-existence check and its ffmpeg split;
  - `merge_clips` and `combine_videos`.
  A clip is modelled as `CaptionClip(caption_id)`, or as `SynthClip(text)` for the clip synthesised from a text.
- src/splitter.py, src/synthesizer.py, src/downloader.py and src/youtube_api.py are not part of this model. They are ffmpeg, a process pool, speech synthesis libraries and network clients. A synthesised clip is named by its text, and its duration is not modelled.
- `find_caption_info` and `insert_syn` are not defined in the source. The caption lookup behind `fetch_clip` and the write-back of synthesised clips are left out.
- `Database.__init__`, `setup`, `drop` and `populate` are a psycopg2 connection, DDL and a directory walk. They are left out.
- The two separate commits of `insert_caption` are left out: the caption row and its word rows are committed apart. The model inserts both at once.
- The float columns `start_t`, `end_t` and `duration` are left out, along with `convert_timestamp` and `find_vtt_splits`. So are the `VARCHAR` length limits and the word row's own serial id.
- A generate action is never resolved into clips, as in the source: it yields no clip.
- Normalize.Lower: models `str.lower()` on ASCII letters only. It runs after the whitelist pass, so every letter it sees is ASCII.
- Planner.StepsAdvance: requires the membership flags to be consistent with the rows (`IndexConsistent`). Without that, a word flagged present but lacking rows makes `Step` return a `generate` action with no levels, and the source's loop never advances (`Planner.Step` states this case). `GenerateActionPlan` reads the flags off the same rows, so the condition always holds there.
- Planner.StepFits, Planner.StepsFit, Planner.LongestExactReuse: assume well-formed word rows (`WellFormedRows`). Without it, `lucky_check`'s length test does not imply that the run starts at position 0. Every store built by `InsertCaption` has well-formed rows.
- Planner.SelfQuery: covers captions whose normalised text is non-empty. An empty caption has no word rows, while its query is one empty word.
- Clips.SynthVideoPath: joins the three parts with `/` and does not model `os.path.join` dropping the earlier parts when a later one starts with `/`. So the modelled path, and reading the text back from it, match the source only for texts that do not start with `/`. Every text `sythesize_words` builds is such a text, since it joins cleaned query words, which contain no `/`.
- Normalize.CleanNotIdempotent: only exhibits an input on which a second run changes the output. Output with adjacent spaces, such as this one, also gives empty tokens both in the index and in queries.

=== FILE: clips.dfy ===
/**
 The clip side of src/masher.py: `sythesize_words`, which cuts a run of
 missing words into pairs and asks for one synthesised clip per pair, and
 `acquire_clips`, which turns the action plan into the ordered clip list.
 The speech synthesiser, the file system and the caption lookup behind
 `fetch_clip` are outside the model: a clip is named by what it is made from.
 */
module Clips {
  import opened Seqs
  import opened Text
  import opened Planner

  /** A clip of the final video: a stored caption's clip, or a synthesised clip of a text. */
  datatype ClipRef = CaptionClip(captionId: nat) | SynthClip(text: string)

  /** The groups laid end to end. */
  function Flatten(groups: seq<seq<string>>): seq<string>
  {
    if |groups| == 0 then [] else groups[0] + Flatten(groups[1..])
  }

  lemma {:induction false} FlattenAppend(a: seq<seq<string>>, b: seq<seq<string>>)
    ensures Flatten(a + b) == Flatten(a) + Flatten(b)
    decreases |a|
  {
    if |a| == 0 {
      assert a + b == b;
    } else {
      FlattenAppend(a[1..], b);
      assert (a + b)[1..] == a[1..] + b;
    }
  }

  /** Where group `k` of `n` words ends: Python clamps the slice `[2k:2k+2]` to the length. */
  function PairEnd(n: nat, k: nat): nat
  {
    if 2 * k + 2 <= n then 2 * k + 2 else n
  }

  /**
   The groups `sythesize_words` walks, `words[i:i+2]` for `i` stepping by 2:
   `⌈n/2⌉` groups of two words, of which only the last may hold a single word.
   */
  function Pairs(words: seq<string>): (groups: seq<seq<string>>)
    ensures |groups| == (|words| + 1) / 2
    ensures forall k :: 0 <= k < |groups| ==> 1 <= |groups[k]| <= 2
    ensures forall k :: 0 <= k < |groups| - 1 ==> |groups[k]| == 2
    decreases |words|
  {
    if |words| <= 2 then
      if |words| == 0 then [] else [words]
    else
      var rest := Pairs(words[2..]);
      var groups := [words[..2]] + rest;
      assert groups[1..] == rest;
      groups
  }

  /**
   The groups laid end to end give back the words: no word is lost, repeated
   or moved. Kept apart from `Pairs` so that proofs about single groups do
   not carry the whole concatenation along.
   */
  lemma {:induction false} PairsFlatten(words: seq<string>)
    ensures Flatten(Pairs(words)) == words
    decreases |words|
  {
    if |words| > 2 {
      PairsCons(words);
      PairsFlatten(words[2..]);
      assert Pairs(words)[1..] == Pairs(words[2..]);
      assert words[..2] + words[2..] == words;
    } else if |words| > 0 {
      assert Pairs(words)[1..] == [];
    }
  }

  /** Group `k` is the slice `words[2k:2k+2]`, clamped to the length. */
  lemma {:induction false} PairIsSlice(words: seq<string>, k: nat)
    requires k < |Pairs(words)|
    ensures 2 * k < |words| && Pairs(words)[k] == words[2 * k..PairEnd(|words|, k)]
    decreases k
  {
    if k > 0 {
      var tail := words[2..];
      PairsCons(words);
      PairIsSlice(tail, k - 1);
      var e := PairEnd(|tail|, k - 1);
      assert PairEnd(|words|, k) == e + 2;
      GroupOfTail(words, Pairs(words), Pairs(tail), k, e);
    } else {
      FirstPair(words);
    }
  }

  /** The first group is the first two words, or all of them when there are fewer. */
  lemma FirstPair(words: seq<string>)
    requires |words| > 0
    ensures Pairs(words)[0] == words[0..PairEnd(|words|, 0)]
  {
    if |words| > 2 {
      PairsCons(words);
      ConsParts(Pairs(words), words[..2], Pairs(words[2..]));
      assert words[0..2] == words[..2];
    } else {
      assert words[0..|words|] == words;
    }
  }

  /** Group `k` of the words is group `k - 1` of the words after the first two, shifted back by two. */
  lemma GroupOfTail(words: seq<string>, groups: seq<seq<string>>, rest: seq<seq<string>>, k: nat, e: nat)
    requires |words| > 2 && groups == [words[..2]] + rest
    requires 1 <= k && k - 1 < |rest| && 2 * (k - 1) <= e <= |words| - 2
    requires rest[k - 1] == words[2..][2 * (k - 1)..e]
    ensures groups[k] == words[2 * k..e + 2]
  {
    ConsParts(groups, words[..2], rest);
    DropSlice(words, 2, 2 * (k - 1), e);
  }

  /** Beyond two words, the first group is the first two words and the rest are the groups of the others. */
  lemma PairsCons(words: seq<string>)
    requires |words| > 2
    ensures Pairs(words) == [words[..2]] + Pairs(words[2..])
  {
  }

  /** `os.path.join('videos', 'syn', '{}.mp4'.format(text))`: where the clip of `text` is written. */
  function SynthVideoPath(text: string): (path: string)
    ensures |path| == |text| + 15
    ensures path[..11] == "videos/syn/" && path[|path| - 4..] == ".mp4"
    ensures path[11..|path| - 4] == text
  {
    "videos/syn/" + text + ".mp4"
  }

  /**
   Different texts are written to different files. This is why a synthesised
   clip can be named by its text in `ClipRef`: the file `sythesize_words`
   appends for a text is `SynthVideoPath(text)` under the root directory, and
   the text determines that file and is determined by it.
   */
  lemma SynthVideoPathInjective(a: string, b: string)
    requires SynthVideoPath(a) == SynthVideoPath(b)
    ensures a == b
  {
    var p := SynthVideoPath(a);
    assert a == p[11..|p| - 4];
  }

  /**
   `sythesize_words(words)`: one synthesised clip per pair, in order, whose text
   is the pair joined by a space: clip `k` says `' '.join(words[2k:2k+2])`.
   */
  function SythesizeWords(words: seq<string>): (clips: seq<ClipRef>)
    ensures |clips| == (|words| + 1) / 2
    ensures forall k :: 0 <= k < |clips| ==> clips[k].SynthClip?
    ensures forall k :: 0 <= k < |clips| ==> 2 * k < |words| && clips[k].text == Join(words[2 * k..PairEnd(|words|, k)], ' ')
  {
    var groups := Pairs(words);
    var clips := seq(|groups|, k requires 0 <= k < |groups| => SynthClip(Join(groups[k], ' ')));
    assert forall k :: 0 <= k < |clips| ==> 2 * k < |words| && clips[k].text == Join(words[2 * k..PairEnd(|words|, k)], ' ') by {
      forall k | 0 <= k < |clips|
        ensures 2 * k < |words| && clips[k].text == Join(words[2 * k..PairEnd(|words|, k)], ' ')
      {
        PairIsSlice(words, k);
      }
    }
    clips
  }

  /** The texts of synthesised clips, cut back at their spaces. */
  function TextWords(clips: seq<ClipRef>): seq<seq<string>>
    requires forall k :: 0 <= k < |clips| ==> clips[k].SynthClip?
  {
    seq(|clips|, k requires 0 <= k < |clips| => Split(clips[k].text, ' '))
  }

  /**
   For words without spaces, which is every word of a cleaned query, the
   synthesised clips say the words in order: cutting each clip's text at its
   spaces and laying the pieces end to end gives back the words.
   */
  lemma SythesizeWordsSaysWords(words: seq<string>)
    requires forall k :: 0 <= k < |words| ==> ' ' !in words[k]
    ensures Flatten(TextWords(SythesizeWords(words))) == words
  {
    var groups := Pairs(words);
    var clips := SythesizeWords(words);
    PairsFlatten(words);
    forall k | 0 <= k < |groups| ensures Split(clips[k].text, ' ') == groups[k] {
      forall e | 0 <= e < |groups[k]| ensures ' ' !in groups[k][e] {
        assert groups[k][e] in Flatten(groups) by {
          FlattenHolds(groups, k, e);
        }
      }
      SplitJoin(groups[k], ' ');
    }
    assert TextWords(clips) == groups;
  }

  /** Every word of a group is a word of the flattened groups. */
  lemma {:induction false} FlattenHolds(groups: seq<seq<string>>, k: nat, e: nat)
    requires k < |groups| && e < |groups[k]|
    ensures groups[k][e] in Flatten(groups)
    decreases k
  {
    if k > 0 {
      FlattenHolds(groups[1..], k - 1, e);
      assert groups[1..][k - 1] == groups[k];
    }
  }

  /** The clips an action contributes: one for a clip, its pairs for a synthesis, none for a generation. */
  function ActionClips(a: Action): seq<ClipRef>
  {
    match a
    case Clip(cid, _) => [CaptionClip(cid)]
    case Synthesize(ws) => SythesizeWords(ws)
    case Generate(_) => []
  }

  /** How many clips a plan yields: one per clip action and `⌈n/2⌉` per synthesis of `n` words. */
  function ClipCount(actions: seq<Action>): nat
  {
    if |actions| == 0 then 0
    else
      var here := match actions[0]
        case Clip(_, _) => 1
        case Synthesize(ws) => (|ws| + 1) / 2
        case Generate(_) => 0;
      here + ClipCount(actions[1..])
  }

  /**
   `acquire_clips(actions)`: the clips of the actions, in action order; there
   are `ClipCount(actions)` of them.
   */
  function AcquireClips(actions: seq<Action>): (clips: seq<ClipRef>)
    ensures |clips| == ClipCount(actions)
    decreases |actions|
  {
    if |actions| == 0 then [] else ActionClips(actions[0]) + AcquireClips(actions[1..])
  }

  /**
   Every caption clip comes from a clip action of the plan for that caption,
   and a plan without synthesis actions yields caption clips only.
   */
  lemma {:induction false} ClipsComeFromActions(actions: seq<Action>)
    ensures forall c :: c in AcquireClips(actions) && c.CaptionClip? ==>
              exists a :: a in actions && a.Clip? && a.captionId == c.captionId
    ensures (forall a :: a in actions ==> !a.Synthesize?) ==> forall c :: c in AcquireClips(actions) ==> c.CaptionClip?
    decreases |actions|
  {
    if |actions| > 0 {
      var x := actions[0];
      var rest := actions[1..];
      ClipsComeFromActions(rest);
      assert actions == [x] + rest;
      AcquireClipsCons(x, rest);
      forall c | c in AcquireClips(actions)
        ensures c.CaptionClip? ==> exists a :: a in actions && a.Clip? && a.captionId == c.captionId
        ensures (forall a :: a in actions ==> !a.Synthesize?) ==> c.CaptionClip?
      {
        if c in ActionClips(x) {
          ActionClipOrigin(x, c);
          assert x in actions;
        } else {
          assert c in AcquireClips(rest);
          assert forall a :: a in rest ==> a in actions;
        }
      }
    }
  }

  /** A caption clip of one action is that clip action's caption; only a synthesis action yields other clips. */
  lemma ActionClipOrigin(x: Action, c: ClipRef)
    requires c in ActionClips(x)
    ensures c.CaptionClip? ==> x.Clip? && x.captionId == c.captionId
    ensures !x.Synthesize? ==> c.CaptionClip?
  {
    if x.Synthesize? {
      var clips := SythesizeWords(x.words);
      var k :| 0 <= k < |clips| && clips[k] == c;
      assert clips[k].SynthClip?;
    }
  }

  lemma AcquireClipsCons(x: Action, rest: seq<Action>)
    ensures AcquireClips([x] + rest) == ActionClips(x) + AcquireClips(rest)
  {
    assert ([x] + rest)[1..] == rest;
  }

  /**
   What one action contributes: a clip action the clip of its caption, a
   synthesis action the synthesised clips of its words two at a time, and a
   `generate` action nothing.
   */
  lemma AcquireClipsOfAction(a: Action)
    ensures a.Clip? ==> AcquireClips([a]) == [CaptionClip(a.captionId)]
    ensures a.Synthesize? ==> AcquireClips([a]) == SythesizeWords(a.words)
    ensures a.Generate? ==> AcquireClips([a]) == []
  {
    AcquireClipsCons(a, []);
    assert ActionClips(a) + [] == ActionClips(a);
  }

  /** Clip acquisition respects plan order: the clips of two plans in a row are the clips of each, in a row. */
  lemma {:induction false} AcquireClipsAppend(a: seq<Action>, b: seq<Action>)
    ensures AcquireClips(a + b) == AcquireClips(a) + AcquireClips(b)
    decreases |a|
  {
    if |a| == 0 {
      assert a + b == b;
    } else {
      SplitFirst(a, b);
      AcquireClipsCons(a[0], a[1..] + b);
      AcquireClipsCons(a[0], a[1..]);
      AcquireClipsAppend(a[1..], b);
      Regroup(AcquireClips(a + b), AcquireClips(a), AcquireClips(a[1..] + b),
              ActionClips(a[0]), AcquireClips(a[1..]), AcquireClips(b));
    }
  }

  /** Dropping the generation actions of a plan leaves its clips unchanged. */
  lemma {:induction false} GenerateYieldsNoClips(actions: seq<Action>)
    ensures AcquireClips(actions) == AcquireClips(NonGenerate(actions))
    decreases |actions|
  {
    if |actions| > 0 {
      GenerateYieldsNoClips(actions[1..]);
      if !actions[0].Generate? {
        var kept := NonGenerate(actions);
        assert kept[0] == actions[0] && kept[1..] == NonGenerate(actions[1..]);
      }
    }
  }

  /** The plan without its generation actions. */
  function NonGenerate(actions: seq<Action>): (r: seq<Action>)
    ensures forall a :: a in r <==> a in actions && !a.Generate?
    decreases |actions|
  {
    if |actions| == 0 then []
    else
      var rest := NonGenerate(actions[1..]);
      assert forall a :: a in actions <==> a == actions[0] || a in actions[1..] by {
        assert actions == [actions[0]] + actions[1..];
      }
      if actions[0].Generate? then rest else [actions[0]] + rest
  }
}

=== FILE: corpus.dfy ===
/**
 The corpus store of src/database.py: the `caption` and `word` tables, the
 pure part of `insert_caption` that turns a caption into word rows, the
 `(vid_id, index)` uniqueness rule, and the word lookups the matcher issues.

 The lookups `find_text_range` and `find_existing_words` are called by the
 matcher but their SQL is not part of this model; they are modelled as
 filters over the stored word rows, in stored order.
 */
module Corpus {
  import opened Wrappers
  import opened Text
  import opened Normalize

  /** A row of the `word` table: token `index` of `length` tokens of caption `captionId`. */
  datatype WordRow = WordRow(captionId: nat, word: string, index: nat, length: nat)

  /** A row of the `caption` table, without its float columns `start_t`, `end_t` and `duration`. */
  datatype Caption = Caption(
    id: nat,
    vidId: string,
    index: nat,
    rawText: string,
    text: string,
    clipPath: string,
    videoPath: string,
    converted: bool,
    priority: int)

  /** Both tables, plus the next value of the caption id sequence. */
  datatype Store = Store(captions: seq<Caption>, words: seq<WordRow>, nextId: nat)

  datatype InsertOutcome = Inserted(id: nat) | Duplicate

  /** Priority given to captions ingested from subtitle tracks. */
  const IngestPriority: int := 100

  // ---------------------------------------------------------------------------
  // Word rows of one caption

  /**
   The word rows `insert_caption` writes for a caption with id `id` and
   normalised text `text`: none for empty text; otherwise one row per
   space-separated token, at positions 0..n-1, each carrying the token count n
   and the token with its periods deleted.
   */
  function WordRows(id: nat, text: string): (rows: seq<WordRow>)
    ensures |rows| == TokenCount(text)
    ensures forall k :: 0 <= k < |rows| ==>
              && rows[k].captionId == id
              && rows[k].index == k
              && rows[k].length == |rows|
              && rows[k].word == Remove(Split(text, ' ')[k], '.')
  {
    if text == "" then []
    else
      var tokens := Split(text, ' ');
      seq(|tokens|, k requires 0 <= k < |tokens| =>
        WordRow(id, Remove(tokens[k], '.'), k, |tokens|))
  }

  /** Number of space-separated tokens of a non-empty text; none for the empty text. */
  function TokenCount(text: string): nat
  {
    if text == "" then 0 else Count(text, ' ') + 1
  }

  /** The tokens the rows carry, in position order. */
  function RowWords(rows: seq<WordRow>): (ws: seq<string>)
    ensures |ws| == |rows|
    ensures forall k :: 0 <= k < |rows| ==> ws[k] == rows[k].word
  {
    seq(|rows|, k requires 0 <= k < |rows| => rows[k].word)
  }

  /**
   The rows reproduce the caption: joining their tokens with single spaces gives
   the caption's normalised text with its periods deleted.
   */
  lemma WordRowsSpellText(id: nat, text: string)
    requires text != ""
    ensures Join(RowWords(WordRows(id, text)), ' ') == Remove(text, '.')
  {
    RemoveThenSplit(text, '.', ' ');
    assert RowWords(WordRows(id, text)) == RemoveEach(Split(text, ' '), '.');
  }

  // ---------------------------------------------------------------------------
  // Inserting a caption

  /** The caption's stored text is its normalised raw text. */
  predicate IsNormalised(c: Caption)
  {
    c.text == Clean(c.rawText)
  }

  /** The `(vid_id, index)` key is already in use. */
  predicate KeyTaken(st: Store, vidId: string, index: nat)
  {
    exists k :: 0 <= k < |st.captions| && st.captions[k].vidId == vidId && st.captions[k].index == index
  }

  /**
   `insert_caption`. A caption whose `(vid_id, index)` is taken violates the
   unique constraint: the transaction is rolled back and neither table changes.
   Otherwise the caption is stored with its raw text verbatim, its normalised
   text, `converted = False` and priority 100, and its word rows are appended.
   Either way the id sequence advances, as a PostgreSQL sequence is not rolled back.
   */
  function InsertCaption(st: Store, clipIndex: nat, vidId: string, rawText: string,
                         videoPath: string, clipPath: string): (r: (Store, InsertOutcome))
    ensures r.1 == Duplicate <==> KeyTaken(st, vidId, clipIndex)
    ensures r.1 == Duplicate ==> r.0.captions == st.captions && r.0.words == st.words
    ensures r.0.nextId == st.nextId + 1
    ensures r.1.Inserted? ==>
              && r.1.id == st.nextId
              && |r.0.captions| == |st.captions| + 1
              && r.0.captions[..|st.captions|] == st.captions
              && var c := r.0.captions[|st.captions|];
              && c.id == r.1.id && c.vidId == vidId && c.index == clipIndex
              && c.rawText == rawText && c.text == Clean(rawText)
              && c.clipPath == clipPath && c.videoPath == videoPath
              && !c.converted && c.priority == IngestPriority
              && r.0.words == st.words + WordRows(c.id, c.text)
  {
    var text := Clean(rawText);
    var id := st.nextId;
    if KeyTaken(st, vidId, clipIndex) then
      (st.(nextId := id + 1), Duplicate)
    else
      var c := Caption(id, vidId, clipIndex, rawText, text, clipPath, videoPath, false, IngestPriority);
      var captions := st.captions + [c];
      assert captions[..|st.captions|] == st.captions;
      (Store(captions, st.words + WordRows(id, text), id + 1), Inserted(id))
  }

  // ---------------------------------------------------------------------------
  // The store invariant

  /** The word rows of `captions`, caption by caption. */
  function AllRows(captions: seq<Caption>): seq<WordRow>
  {
    if |captions| == 0 then []
    else
      var last := captions[|captions| - 1];
      AllRows(captions[..|captions| - 1]) + WordRows(last.id, last.text)
  }

  /** No two captions share a `(vid_id, index)` key. */
  ghost predicate KeysUnique(cs: seq<Caption>)
  {
    forall i, j :: 0 <= i < j < |cs| ==> !(cs[i].vidId == cs[j].vidId && cs[i].index == cs[j].index)
  }

  /** Caption ids increase along the table and stay below the sequence's next value. */
  ghost predicate IdsIncreasing(cs: seq<Caption>, nextId: nat)
  {
    && (forall i, j :: 0 <= i < j < |cs| ==> cs[i].id < cs[j].id)
    && (forall i :: 0 <= i < |cs| ==> cs[i].id < nextId)
  }

  ghost predicate AllNormalised(cs: seq<Caption>)
  {
    forall i :: 0 <= i < |cs| ==> IsNormalised(cs[i])
  }

  /**
   What every store built by `InsertCaption` satisfies: `(vid_id, index)` keys
   are unique, ids are increasing and below the sequence, every stored text is
   the normalised raw text, and the word table holds exactly the rows of the
   stored captions.
   */
  ghost predicate StoreInv(st: Store)
  {
    && KeysUnique(st.captions)
    && IdsIncreasing(st.captions, st.nextId)
    && AllNormalised(st.captions)
    && st.words == AllRows(st.captions)
  }

  lemma EmptyStoreInv()
    ensures StoreInv(Store([], [], 0))
  {
  }

  lemma AppendKeepsKeysUnique(cs: seq<Caption>, c: Caption)
    requires KeysUnique(cs)
    requires forall k :: 0 <= k < |cs| ==> !(cs[k].vidId == c.vidId && cs[k].index == c.index)
    ensures KeysUnique(cs + [c])
  {
    var cs' := cs + [c];
    forall i, j | 0 <= i < j < |cs'|
      ensures !(cs'[i].vidId == cs'[j].vidId && cs'[i].index == cs'[j].index)
    {
      assert cs'[i] == cs[i];
      if j < |cs| { assert cs'[j] == cs[j]; } else { assert cs'[j] == c; }
    }
  }

  lemma AppendKeepsIdsIncreasing(cs: seq<Caption>, nextId: nat, c: Caption)
    requires IdsIncreasing(cs, nextId)
    requires c.id == nextId
    ensures IdsIncreasing(cs + [c], nextId + 1)
  {
    var cs' := cs + [c];
    forall i, j | 0 <= i < j < |cs'| ensures cs'[i].id < cs'[j].id {
      assert cs'[i] == cs[i];
      if j < |cs| { assert cs'[j] == cs[j]; } else { assert cs'[j] == c; }
    }
    forall i | 0 <= i < |cs'| ensures cs'[i].id < nextId + 1 {
      if i < |cs| { assert cs'[i] == cs[i]; } else { assert cs'[i] == c; }
    }
  }

  lemma AppendKeepsNormalised(cs: seq<Caption>, c: Caption)
    requires AllNormalised(cs) && IsNormalised(c)
    ensures AllNormalised(cs + [c])
  {
    var cs' := cs + [c];
    forall i | 0 <= i < |cs'| ensures IsNormalised(cs'[i]) {
      if i < |cs| { assert cs'[i] == cs[i]; } else { assert cs'[i] == c; }
    }
  }

  /** Appending a caption with a fresh key and the next id, together with its rows, keeps the invariant. */
  lemma AppendCaptionKeepsInv(st: Store, c: Caption)
    requires StoreInv(st)
    requires !KeyTaken(st, c.vidId, c.index)
    requires c.id == st.nextId && IsNormalised(c)
    ensures StoreInv(Store(st.captions + [c], st.words + WordRows(c.id, c.text), st.nextId + 1))
  {
    var cs := st.captions + [c];
    AppendKeepsKeysUnique(st.captions, c);
    AppendKeepsIdsIncreasing(st.captions, st.nextId, c);
    AppendKeepsNormalised(st.captions, c);
    assert cs[..|cs| - 1] == st.captions;
  }

  /** Inserting a caption, accepted or rejected, keeps the store invariant. */
  lemma InsertKeepsInv(st: Store, clipIndex: nat, vidId: string, rawText: string,
                       videoPath: string, clipPath: string)
    requires StoreInv(st)
    ensures StoreInv(InsertCaption(st, clipIndex, vidId, rawText, videoPath, clipPath).0)
  {
    var r := InsertCaption(st, clipIndex, vidId, rawText, videoPath, clipPath);
    if KeyTaken(st, vidId, clipIndex) {
      assert r.0 == st.(nextId := st.nextId + 1);
    } else {
      var c := Caption(st.nextId, vidId, clipIndex, rawText, Clean(rawText), clipPath, videoPath, false, IngestPriority);
      assert r.0 == Store(st.captions + [c], st.words + WordRows(c.id, c.text), st.nextId + 1);
      AppendCaptionKeepsInv(st, c);
    }
  }

  /** The well-formedness the matcher relies on: positions below the token count, one count per caption. */
  ghost predicate WellFormedRows(rows: seq<WordRow>)
  {
    && (forall k :: 0 <= k < |rows| ==> rows[k].index < rows[k].length)
    && (forall k, m :: 0 <= k < |rows| && 0 <= m < |rows| && rows[k].captionId == rows[m].captionId ==>
          rows[k].length == rows[m].length)
  }

  /** Row `row` is one of the word rows of caption `c`. */
  ghost predicate RowOf(row: WordRow, c: Caption)
  {
    row.captionId == c.id && row.index < row.length && row.length == TokenCount(c.text)
  }

  lemma {:induction false} AllRowsOrigin(captions: seq<Caption>)
    ensures forall k :: 0 <= k < |AllRows(captions)| ==>
              exists m :: 0 <= m < |captions| && RowOf(AllRows(captions)[k], captions[m])
    decreases |captions|
  {
    if |captions| == 0 {
      assert AllRows(captions) == [];
    } else {
      var init := captions[..|captions| - 1];
      var last := captions[|captions| - 1];
      AllRowsOrigin(init);
      var rows := AllRows(captions);
      var own := WordRows(last.id, last.text);
      forall k | 0 <= k < |rows|
        ensures exists m :: 0 <= m < |captions| && RowOf(rows[k], captions[m])
      {
        if k < |AllRows(init)| {
          var m :| 0 <= m < |init| && RowOf(AllRows(init)[k], init[m]);
          assert rows[k] == AllRows(init)[k];
          assert captions[m] == init[m];
        } else {
          assert rows[k] == own[k - |AllRows(init)|];
          assert RowOf(rows[k], captions[|captions| - 1]);
        }
      }
    }
  }

  /** The word table of a store holds every word row of every stored caption. */
  lemma {:induction false} CaptionRowsStored(cs: seq<Caption>, m: nat)
    requires m < |cs|
    ensures forall x :: x in WordRows(cs[m].id, cs[m].text) ==> x in AllRows(cs)
    decreases |cs|
  {
    var init := cs[..|cs| - 1];
    var last := cs[|cs| - 1];
    assert AllRows(cs) == AllRows(init) + WordRows(last.id, last.text);
    if m < |cs| - 1 {
      CaptionRowsStored(init, m);
      assert init[m] == cs[m];
    }
  }

  /** Caption ids increasing along the table are distinct. */
  lemma IncreasingIdsDistinct(cs: seq<Caption>, a: nat, b: nat)
    requires forall i, j :: 0 <= i < j < |cs| ==> cs[i].id < cs[j].id
    requires a < |cs| && b < |cs| && cs[a].id == cs[b].id
    ensures a == b
  {
  }

  /** A store that keeps the invariant offers the matcher well-formed word rows. */
  lemma StoreRowsWellFormed(st: Store)
    requires StoreInv(st)
    ensures WellFormedRows(st.words)
  {
    CaptionRowsWellFormed(st.captions);
  }

  lemma CaptionRowsWellFormed(cs: seq<Caption>)
    requires forall i, j :: 0 <= i < j < |cs| ==> cs[i].id < cs[j].id
    ensures WellFormedRows(AllRows(cs))
  {
    var rows := AllRows(cs);
    AllRowsOrigin(cs);
    forall k, m | 0 <= k < |rows| && 0 <= m < |rows| && rows[k].captionId == rows[m].captionId
      ensures rows[k].length == rows[m].length
    {
      var a :| 0 <= a < |cs| && RowOf(rows[k], cs[a]);
      var b :| 0 <= b < |cs| && RowOf(rows[m], cs[b]);
      IncreasingIdsDistinct(cs, a, b);
    }
  }

  // ---------------------------------------------------------------------------
  // Lookups

  /** Some row carries token `w`. */
  ghost predicate HasWord(rows: seq<WordRow>, w: string)
  {
    exists x :: x in rows && x.word == w
  }

  /**
   `find_text_range(w, caption_index_filters)`: the rows carrying token `w`, in
   stored order; with filters, only those whose `(caption_id, index)` is one of
   the filter pairs.
   */
  function FindTextRange(rows: seq<WordRow>, w: string, filters: Option<set<(nat, nat)>>): (r: seq<WordRow>)
    ensures |r| <= |rows|
    ensures forall x {:trigger x in r} :: x in r <==>
              x in rows && x.word == w && (filters.Some? ==> (x.captionId, x.index) in filters.value)
  {
    if |rows| == 0 then []
    else
      var x := rows[0];
      var keep := x.word == w && (filters.Some? ==> (x.captionId, x.index) in filters.value);
      var rest := FindTextRange(rows[1..], w, filters);
      assert forall y :: y in rows <==> y == x || y in rows[1..] by {
        assert rows == [x] + rows[1..];
      }
      if keep then [x] + rest else rest
  }

  /**
   The lookup keeps stored order: on rows stored one batch after another it
   returns the first batch's hits followed by the second's.
   */
  lemma {:induction false} FindTextRangeAppend(rows1: seq<WordRow>, rows2: seq<WordRow>, w: string, filters: Option<set<(nat, nat)>>)
    ensures FindTextRange(rows1 + rows2, w, filters) == FindTextRange(rows1, w, filters) + FindTextRange(rows2, w, filters)
    decreases |rows1|
  {
    if |rows1| == 0 {
      assert rows1 + rows2 == rows2;
    } else {
      var both := rows1 + rows2;
      var tail := rows1[1..];
      assert both[0] == rows1[0] && both[1..] == tail + rows2;
      FindTextRangeCons(both, w, filters);
      FindTextRangeCons(rows1, w, filters);
      FindTextRangeAppend(tail, rows2, w, filters);
    }
  }

  /** The lookup on rows is the lookup on the first row followed by the lookup on the others. */
  lemma FindTextRangeCons(rows: seq<WordRow>, w: string, filters: Option<set<(nat, nat)>>)
    requires |rows| > 0
    ensures FindTextRange(rows, w, filters) == FindTextRange([rows[0]], w, filters) + FindTextRange(rows[1..], w, filters)
  {
    var x := rows[0];
    var rest := FindTextRange(rows[1..], w, filters);
    FindTextRangeOne(x, w, filters);
    if x.word == w && (filters.Some? ==> (x.captionId, x.index) in filters.value) {
      assert FindTextRange(rows, w, filters) == [x] + rest;
    } else {
      assert FindTextRange(rows, w, filters) == rest;
      assert [] + rest == rest;
    }
  }

  /** A single row comes back exactly when it carries the token and passes the filter. */
  lemma FindTextRangeOne(x: WordRow, w: string, filters: Option<set<(nat, nat)>>)
    ensures FindTextRange([x], w, filters) ==
              (if x.word == w && (filters.Some? ==> (x.captionId, x.index) in filters.value) then [x] else [])
  {
    assert [x][1..] == [];
  }

  /** An unfiltered lookup finds something exactly when some row carries the token. */
  lemma FindTextRangeNonEmpty(rows: seq<WordRow>, w: string)
    ensures FindTextRange(rows, w, None) != [] <==> HasWord(rows, w)
  {
    var r := FindTextRange(rows, w, None);
    if r != [] {
      assert r[0] in r;
    }
  }

  /** `find_existing_words(words)`: the query tokens that some row carries. */
  function FindExistingWords(rows: seq<WordRow>, words: seq<string>): (r: set<string>)
    ensures forall w :: w in r <==> w in words && HasWord(rows, w)
  {
    assert forall w :: FindTextRange(rows, w, None) != [] <==> HasWord(rows, w) by {
      forall w ensures FindTextRange(rows, w, None) != [] <==> HasWord(rows, w) {
        FindTextRangeNonEmpty(rows, w);
      }
    }
    set w | w in words && FindTextRange(rows, w, None) != []
  }
}

=== FILE: matcher.dfy ===
/**
 The chain matcher of src/masher.py: `max_word_range`, which walks the word
 index from a start word and keeps, level by level, every occurrence that
 continues a same-caption run of consecutive query words, and `lucky_check`,
 which looks in those levels for a caption that the run covers exactly.
 */
module Matcher {
  import opened Wrappers
  import opened Corpus

  /** One level of the range list: the word rows still consistent with the run so far. */
  type Level = seq<WordRow>

  /** The filter pairs built from a level: each row's caption with the next position. */
  function Successors(level: Level): (f: set<(nat, nat)>)
    ensures forall x :: x in level ==> (x.captionId, x.index + 1) in f
    ensures forall p :: p in f ==> exists x :: x in level && p == (x.captionId, x.index + 1)
  {
    set x | x in level :: (x.captionId, x.index + 1)
  }

  /**
   Level `d` of a range list whose level 0 is at query position `j`: the word
   `words[j + d]` is in the corpus and the level holds exactly the rows of that
   word that follow a row of level `d - 1` in the same caption.
   */
  ghost predicate ChainStep(rows: seq<WordRow>, words: seq<string>, db: seq<bool>, j: nat, levels: seq<Level>, d: nat)
    requires 1 <= d < |levels| && j + d < |words| == |db|
  {
    db[j + d] && levels[d] == FindTextRange(rows, words[j + d], Some(Successors(levels[d - 1])))
  }

  /**
   The loop of `max_word_range` from query position `j`, whose rows are
   `level`: a non-empty level is kept, and the walk continues with the rows of
   `words[j + 1]` that follow a row of this level in the same caption, unless
   the query ends or `words[j + 1]` is not in the corpus.
   */
  function Extend(rows: seq<WordRow>, words: seq<string>, db: seq<bool>, j: nat, level: Level): (levels: seq<Level>)
    requires j < |words| == |db|
    ensures |levels| <= |words| - j
    ensures levels == [] <==> level == []
    ensures levels != [] ==> levels[0] == level
    ensures forall d :: 0 <= d < |levels| ==> levels[d] != []
    decreases |words| - j
  {
    if level == [] then []
    else if j + 1 >= |words| || !db[j + 1] then [level]
    else
      var next := FindTextRange(rows, words[j + 1], Some(Successors(level)));
      var rest := Extend(rows, words, db, j + 1, next);
      if rest == [] then [level]
      else
        var levels := [level] + rest;
        assert forall d :: 1 <= d < |levels| ==> levels[d] == rest[d - 1];
        levels
  }

  /**
   Each level `Extend` adds continues the one before it, and it stops before
   the end of the query at a word in the corpus only when no row of that word
   continues the last level.
   */
  lemma {:induction false} ExtendChains(rows: seq<WordRow>, words: seq<string>, db: seq<bool>, j: nat, level: Level)
    requires j < |words| == |db|
    ensures forall d :: 1 <= d < |Extend(rows, words, db, j, level)| ==>
              ChainStep(rows, words, db, j, Extend(rows, words, db, j, level), d)
    ensures StuckAfter(rows, words, db, j, Extend(rows, words, db, j, level))
    decreases |words| - j
  {
    if level != [] && j + 1 < |words| && db[j + 1] {
      var next := FindTextRange(rows, words[j + 1], Some(Successors(level)));
      var rest := Extend(rows, words, db, j + 1, next);
      ExtendChains(rows, words, db, j + 1, next);
      if rest != [] {
        var levels := [level] + rest;
        assert Extend(rows, words, db, j, level) == levels;
        ChainCons(rows, words, db, j, j + 1, level, rest, levels);
      }
    }
  }

  /**
   A range list starting at `j` that ends before the query does, at a word in
   the corpus, ends because no row of that word continues its last level.
   */
  ghost predicate StuckAfter(rows: seq<WordRow>, words: seq<string>, db: seq<bool>, j: nat, levels: seq<Level>)
    requires j < |words| == |db|
  {
    levels != [] && j + |levels| < |words| && db[j + |levels|] ==>
      FindTextRange(rows, words[j + |levels|], Some(Successors(levels[|levels| - 1]))) == []
  }

  /** A level followed by a range list that continues it is a range list one position earlier. */
  lemma ChainCons(rows: seq<WordRow>, words: seq<string>, db: seq<bool>, j: nat, next: nat, level: Level,
                  rest: seq<Level>, levels: seq<Level>)
    requires next == j + 1 && next + |rest| <= |words| == |db| && rest != [] && db[next]
    requires rest[0] == FindTextRange(rows, words[next], Some(Successors(level)))
    requires forall d :: 1 <= d < |rest| ==> ChainStep(rows, words, db, next, rest, d)
    requires StuckAfter(rows, words, db, next, rest)
    requires levels == [level] + rest
    ensures forall d :: 1 <= d < |levels| ==> ChainStep(rows, words, db, j, levels, d)
    ensures StuckAfter(rows, words, db, j, levels)
  {
    assert levels[|levels| - 1] == rest[|rest| - 1];
    forall d | 1 <= d < |levels| ensures ChainStep(rows, words, db, j, levels, d) {
      assert levels[d] == rest[d - 1];
      if d > 1 {
        assert ChainStep(rows, words, db, next, rest, d - 1);
        assert levels[d - 1] == rest[d - 2];
      }
    }
  }

  /**
   `max_word_range(words, start, db_words)`: the range list for the run that
   starts at `start`. Level `d` holds every row of `words[start + d]` that
   continues a row of level `d - 1` in its caption; the list stops at the
   first empty level, the end of the query or a word that is not in the corpus.
   */
  function MaxWordRange(rows: seq<WordRow>, words: seq<string>, start: nat, db: seq<bool>): (levels: seq<Level>)
    requires start < |words| == |db|
    ensures |levels| <= |words| - start
    ensures levels == [] <==> !HasWord(rows, words[start])
    ensures forall d :: 0 <= d < |levels| ==> levels[d] != []
    ensures levels != [] ==> levels[0] == FindTextRange(rows, words[start], None)
  {
    FindTextRangeNonEmpty(rows, words[start]);
    Extend(rows, words, db, start, FindTextRange(rows, words[start], None))
  }

  /**
   `levels` is a range list for the run starting at `start`: level 0 holds the
   rows of `words[start]` and every deeper level follows the one above it.
   */
  ghost predicate IsRangeList(rows: seq<WordRow>, words: seq<string>, db: seq<bool>, start: nat, levels: seq<Level>)
    requires start < |words| == |db|
  {
    && |levels| <= |words| - start
    && (levels != [] ==> levels[0] == FindTextRange(rows, words[start], None))
    && forall d :: 1 <= d < |levels| ==> ChainStep(rows, words, db, start, levels, d)
  }

  /**
   The range list stops only where it must: it is empty only when the start
   word has no row, and when it stops before the end of the query at a word
   in the corpus, that word's rows continue no row of the last level.
   */
  ghost predicate StopsWhenStuck(rows: seq<WordRow>, words: seq<string>, db: seq<bool>, start: nat, levels: seq<Level>)
    requires start < |words| == |db|
  {
    && (levels == [] ==> !HasWord(rows, words[start]))
    && StuckAfter(rows, words, db, start, levels)
  }

  /** The list `max_word_range` builds is a range list that stops only when stuck. */
  lemma MaxWordRangeIsRangeList(rows: seq<WordRow>, words: seq<string>, start: nat, db: seq<bool>)
    requires start < |words| == |db|
    ensures IsRangeList(rows, words, db, start, MaxWordRange(rows, words, start, db))
    ensures StopsWhenStuck(rows, words, db, start, MaxWordRange(rows, words, start, db))
  {
    ExtendChains(rows, words, db, start, FindTextRange(rows, words[start], None));
  }

  /** Some row of caption `cid` sits at position `pos` and carries token `w`. */
  ghost predicate Occurs(rows: seq<WordRow>, cid: nat, pos: nat, w: string)
  {
    exists y :: y in rows && y.captionId == cid && y.index == pos && y.word == w
  }

  /** The rows of caption `cid` at positions `p`, `p + 1`, ... spell `ws`. */
  ghost predicate Spells(rows: seq<WordRow>, cid: nat, p: nat, ws: seq<string>)
  {
    forall e :: 0 <= e < |ws| ==> Occurs(rows, cid, p + e, ws[e])
  }

  /** A run spelling `words[start..start + d]` that continues with `words[start + d]` spells one word more. */
  lemma RunGrows(rows: seq<WordRow>, cid: nat, p: nat, words: seq<string>, start: nat, d: nat, x: WordRow)
    requires start + d < |words|
    requires Spells(rows, cid, p, words[start..start + d])
    requires x in rows && x.captionId == cid && x.index == p + d && x.word == words[start + d]
    ensures Spells(rows, cid, p, words[start..start + d + 1])
  {
    var prev := words[start..start + d];
    var ext := words[start..start + d + 1];
    forall e | 0 <= e < |ext| ensures Occurs(rows, cid, p + e, ext[e]) {
      if e < d {
        assert ext[e] == prev[e];
      } else {
        assert ext[e] == x.word;
      }
    }
  }

  /** A row of a deeper level continues some row of the level above it. */
  lemma LevelRowHasPredecessor(rows: seq<WordRow>, words: seq<string>, db: seq<bool>, start: nat, levels: seq<Level>,
                                d: nat, x: WordRow)
    requires start < |words| == |db| && IsRangeList(rows, words, db, start, levels)
    requires 1 <= d < |levels| && x in levels[d]
    ensures x in rows && x.word == words[start + d]
    ensures exists y :: y in levels[d - 1] && y.captionId == x.captionId && y.index + 1 == x.index
  {
    assert ChainStep(rows, words, db, start, levels, d);
    assert (x.captionId, x.index) in Successors(levels[d - 1]);
  }

  /**
   Soundness of the range list: a row at level `d` ends a run of `d + 1`
   consecutive rows of its caption that spell `words[start..start + d + 1]`.
   */
  lemma {:induction false} LevelRowEndsRun(rows: seq<WordRow>, words: seq<string>, db: seq<bool>, start: nat, levels: seq<Level>,
                                           d: nat, x: WordRow)
    requires start < |words| == |db| && IsRangeList(rows, words, db, start, levels)
    requires d < |levels| && x in levels[d]
    ensures x in rows && x.word == words[start + d] && x.index >= d
    ensures Spells(rows, x.captionId, x.index - d, words[start..start + d + 1])
    decreases d
  {
    if d == 0 {
      assert x in FindTextRange(rows, words[start], None);
      assert Occurs(rows, x.captionId, x.index, words[start..start + 1][0]);
    } else {
      LevelRowHasPredecessor(rows, words, db, start, levels, d, x);
      var y :| y in levels[d - 1] && y.captionId == x.captionId && y.index + 1 == x.index;
      LevelRowEndsRun(rows, words, db, start, levels, d - 1, y);
      assert y.index - (d - 1) == x.index - d && start + (d - 1) + 1 == start + d;
      RunGrows(rows, x.captionId, x.index - d, words, start, d, x);
    }
  }

  /**
   Completeness of the range list: a run of `d + 1` consecutive rows of one
   caption spelling `words[start..start + d + 1]`, all of whose words after the
   first are in the corpus, reaches level `d`, and its last row is in that level.
   */
  lemma {:induction false} RunReachesLevel(rows: seq<WordRow>, words: seq<string>, db: seq<bool>, start: nat,
                                           levels: seq<Level>, cid: nat, p: nat, d: nat, y: WordRow)
    requires start + d < |words| == |db|
    requires IsRangeList(rows, words, db, start, levels) && StopsWhenStuck(rows, words, db, start, levels)
    requires Spells(rows, cid, p, words[start..start + d])
    requires forall q :: start < q <= start + d ==> db[q]
    requires y in rows && y.captionId == cid && y.index == p + d && y.word == words[start + d]
    ensures d < |levels| && y in levels[d]
    decreases d
  {
    if d == 0 {
      assert HasWord(rows, words[start]);
    } else {
      var prev := words[start..start + d];
      assert Occurs(rows, cid, p + (d - 1), prev[d - 1]);
      var z :| z in rows && z.captionId == cid && z.index == p + (d - 1) && z.word == words[start + (d - 1)];
      SpellsPrefix(rows, cid, p, words, start, d);
      RunReachesLevel(rows, words, db, start, levels, cid, p, d - 1, z);
      StepReachesLevel(rows, words, db, start, levels, d, y, z);
    }
  }

  /** Dropping the last word of a spelled run leaves a spelled run. */
  lemma SpellsPrefix(rows: seq<WordRow>, cid: nat, p: nat, words: seq<string>, start: nat, d: nat)
    requires 1 <= d && start + d <= |words|
    requires Spells(rows, cid, p, words[start..start + d])
    ensures Spells(rows, cid, p, words[start..start + (d - 1)])
  {
    var prev := words[start..start + d];
    var shorter := words[start..start + (d - 1)];
    forall e | 0 <= e < |shorter| ensures Occurs(rows, cid, p + e, shorter[e]) {
      assert shorter[e] == prev[e];
    }
  }

  /** A row continuing a row of level `d - 1`, at a word in the corpus, is in level `d`. */
  lemma StepReachesLevel(rows: seq<WordRow>, words: seq<string>, db: seq<bool>, start: nat,
                         levels: seq<Level>, d: nat, y: WordRow, z: WordRow)
    requires 1 <= d && start + d < |words| == |db| && db[start + d]
    requires IsRangeList(rows, words, db, start, levels) && StopsWhenStuck(rows, words, db, start, levels)
    requires d - 1 < |levels| && z in levels[d - 1]
    requires y in rows && y.word == words[start + d] && y.captionId == z.captionId && y.index == z.index + 1
    ensures d < |levels| && y in levels[d]
  {
    var next := FindTextRange(rows, words[start + d], Some(Successors(levels[d - 1])));
    assert (y.captionId, y.index) in Successors(levels[d - 1]);
    assert y in next;
    assert d < |levels|;
    assert ChainStep(rows, words, db, start, levels, d);
  }

  /** `lucky_check`'s verdict: caption `captionId` covers the first `size` words of the run exactly. */
  datatype Hit = Hit(captionId: nat, size: nat)

  /** Some row of the level belongs to a caption of exactly `size` tokens. */
  ghost predicate HasExact(level: Level, size: nat)
  {
    exists x :: x in level && x.length == size
  }

  /** The first row of the level, in stored order, whose caption has exactly `size` tokens. */
  function FirstExact(level: Level, size: nat): (r: Option<WordRow>)
    ensures r.None? <==> !HasExact(level, size)
    ensures r.Some? ==> r.value in level && r.value.length == size
  {
    if |level| == 0 then None
    else if level[0].length == size then Some(level[0])
    else
      var r := FirstExact(level[1..], size);
      assert forall x :: x in level <==> x == level[0] || x in level[1..] by {
        assert level == [level[0]] + level[1..];
      }
      r
  }

  /** The row `FirstExact` picks comes before every other row of a caption of `size` tokens. */
  lemma {:induction false} FirstExactIsFirst(level: Level, size: nat)
    requires FirstExact(level, size).Some?
    ensures exists k :: 0 <= k < |level| && level[k] == FirstExact(level, size).value
                        && forall m :: 0 <= m < k ==> level[m].length != size
  {
    if level[0].length != size {
      FirstExactIsFirst(level[1..], size);
      var k :| 0 <= k < |level[1..]| && level[1..][k] == FirstExact(level[1..], size).value
               && forall m :: 0 <= m < k ==> level[1..][m].length != size;
      assert level[k + 1] == FirstExact(level, size).value;
      assert forall m :: 1 <= m < k + 1 ==> level[m] == level[1..][m - 1];
    } else {
      assert level[0] == FirstExact(level, size).value;
    }
  }

  /** Level `d` of the range list holds a row of a caption of exactly `d + 1` tokens: a whole caption ends there. */
  ghost predicate ExactAt(ranges: seq<Level>, d: nat)
    requires d < |ranges|
  {
    HasExact(ranges[d], d + 1)
  }

  /** The hit names the caption of the first exact row of level `size - 1`. */
  ghost predicate FirstExactIn(ranges: seq<Level>, hit: Hit)
  {
    && 1 <= hit.size <= |ranges|
    && var x := FirstExact(ranges[hit.size - 1], hit.size);
       x.Some? && x.value.captionId == hit.captionId
  }

  /**
   `lucky_check(ranges)`: scanning from the deepest level up, the first level
   `d` holding a row whose caption has exactly `d + 1` tokens gives a hit of
   size `d + 1` on the first such row. No deeper level holds such a row, so the
   longest exact match wins; `None` means no level holds one.
   */
  function LuckyCheck(ranges: seq<Level>): (r: Option<Hit>)
    ensures r.None? <==> forall d :: 0 <= d < |ranges| ==> !ExactAt(ranges, d)
    ensures r.Some? ==> 1 <= r.value.size <= |ranges| && FirstExactIn(ranges, r.value)
    ensures r.Some? ==> forall d :: r.value.size <= d < |ranges| ==> !ExactAt(ranges, d)
    decreases |ranges|
  {
    if |ranges| == 0 then None
    else
      var d := |ranges| - 1;
      match FirstExact(ranges[d], d + 1)
      case Some(x) =>
        assert ExactAt(ranges, d);
        Some(Hit(x.captionId, d + 1))
      case None =>
        var r := LuckyCheck(ranges[..d]);
        assert forall e :: 0 <= e < d ==> ExactAt(ranges[..d], e) == ExactAt(ranges, e) by {
          assert forall e :: 0 <= e < d ==> ranges[..d][e] == ranges[e];
        }
        r
  }
}

=== FILE: normalize.dfy ===
/**
 The caption normaliser `clean_caption_text` (src/utils.py). Both the word
 index and every query are built from its output, so the matcher compares
 normalised tokens only.

 It is a pipeline of four regular-expression passes followed by `strip()` and
 `lower()`; each pass is its own function here, in the order the source applies
 them.
 */
module Normalize {
  import opened Wrappers
  import opened Seqs

  /** The characters Python's `\s` and `str.strip()` treat as whitespace (`str.isspace()`). */
  predicate IsSpace(c: char)
  {
    || c == ' '
    || '\t' <= c <= '\r'
    || '\U{1C}' <= c <= '\U{1F}'
    || c == '\U{85}' || c == '\U{A0}' || c == '\U{1680}'
    || '\U{2000}' <= c <= '\U{200A}'
    || c == '\U{2028}' || c == '\U{2029}' || c == '\U{202F}' || c == '\U{205F}' || c == '\U{3000}'
  }

  predicate IsOpener(c: char) { c == '(' || c == '[' || c == '{' }

  predicate IsCloser(c: char) { c == ')' || c == ']' || c == '}' }

  predicate IsUpper(c: char) { 'A' <= c <= 'Z' }

  /** The whitelist of the fourth pass: `[a-zA-Z0-9_' .]`. */
  predicate IsAllowed(c: char)
  {
    'a' <= c <= 'z' || IsUpper(c) || '0' <= c <= '9' || c == '_' || c == '\'' || c == ' ' || c == '.'
  }

  /** The characters a normalised caption may contain: the whitelist in lower case. */
  predicate IsCleanChar(c: char)
  {
    'a' <= c <= 'z' || '0' <= c <= '9' || c == '_' || c == '\'' || c == ' ' || c == '.'
  }

  /** The characters of `s` that are not whitespace, in order. */
  function NonSpace(s: string): string
  {
    if |s| == 0 then "" else (if IsSpace(s[0]) then "" else [s[0]]) + NonSpace(s[1..])
  }

  // ---------------------------------------------------------------------------
  // Pass 1: `\s+` -> ' '

  /** `s` without its leading whitespace. */
  function DropLeadingSpace(s: string): (r: string)
    ensures |r| <= |s| && r == s[|s| - |r|..]
    ensures |r| > 0 ==> !IsSpace(r[0])
    ensures forall k :: 0 <= k < |s| - |r| ==> IsSpace(s[k])
  {
    if |s| > 0 && IsSpace(s[0]) then
      var r := DropLeadingSpace(s[1..]);
      assert forall k :: 1 <= k < |s| ==> s[k] == s[1..][k - 1];
      r
    else s
  }

  /**
   The first pass: every maximal run of whitespace becomes one plain space
   (`CollapseIsSingleSpaced`, `CollapseKeepsNonSpace`, `CollapseAppend`).
   */
  function CollapseWhitespace(s: string): (r: string)
    ensures |r| <= |s|
    ensures |s| > 0 ==> |r| > 0 && r[0] == (if IsSpace(s[0]) then ' ' else s[0])
    decreases |s|
  {
    if |s| == 0 then ""
    else if IsSpace(s[0]) then " " + CollapseWhitespace(DropLeadingSpace(s[1..]))
    else [s[0]] + CollapseWhitespace(s[1..])
  }

  /** Text in which the only whitespace is single plain spaces. */
  predicate SingleSpaced(s: string)
  {
    && (forall k :: 0 <= k < |s| && IsSpace(s[k]) ==> s[k] == ' ')
    && (forall k :: 0 <= k < |s| - 1 ==> !(s[k] == ' ' && s[k + 1] == ' '))
  }

  /** After the first pass the only whitespace left is plain spaces, never two in a row. */
  lemma {:induction false} CollapseIsSingleSpaced(s: string)
    ensures SingleSpaced(CollapseWhitespace(s))
    decreases |s|
  {
    if |s| > 0 {
      if IsSpace(s[0]) {
        var t := DropLeadingSpace(s[1..]);
        CollapseIsSingleSpaced(t);
        var c := CollapseWhitespace(t);
        assert |c| > 0 ==> c[0] == t[0];
        SingleSpacedCons(' ', c);
        assert CollapseWhitespace(s) == [' '] + c;
      } else {
        var c := CollapseWhitespace(s[1..]);
        CollapseIsSingleSpaced(s[1..]);
        SingleSpacedCons(s[0], c);
        assert CollapseWhitespace(s) == [s[0]] + c;
      }
    }
  }

  lemma SingleSpacedCons(x: char, c: string)
    requires SingleSpaced(c)
    requires IsSpace(x) ==> x == ' '
    requires x == ' ' && |c| > 0 ==> !IsSpace(c[0])
    ensures SingleSpaced([x] + c)
  {
    var r := [x] + c;
    assert forall k :: 1 <= k < |r| ==> r[k] == c[k - 1];
  }

  lemma {:induction false} NonSpaceAppend(a: string, b: string)
    ensures NonSpace(a + b) == NonSpace(a) + NonSpace(b)
    decreases |a|
  {
    if |a| > 0 {
      assert (a + b)[0] == a[0];
      assert (a + b)[1..] == a[1..] + b;
      NonSpaceAppend(a[1..], b);
    } else {
      assert a + b == b;
    }
  }

  lemma {:induction false} NonSpaceOfDropLeadingSpace(s: string)
    ensures NonSpace(DropLeadingSpace(s)) == NonSpace(s)
    decreases |s|
  {
    if |s| > 0 && IsSpace(s[0]) {
      NonSpaceOfDropLeadingSpace(s[1..]);
    }
  }

  /** The first pass only touches whitespace: every other character survives, in order. */
  lemma {:induction false} CollapseKeepsNonSpace(s: string)
    ensures NonSpace(CollapseWhitespace(s)) == NonSpace(s)
    decreases |s|
  {
    if |s| > 0 {
      if IsSpace(s[0]) {
        var t := DropLeadingSpace(s[1..]);
        NonSpaceOfDropLeadingSpace(s[1..]);
        CollapseKeepsNonSpace(t);
        NonSpaceAppend(" ", CollapseWhitespace(t));
      } else {
        CollapseKeepsNonSpace(s[1..]);
        NonSpaceAppend([s[0]], CollapseWhitespace(s[1..]));
      }
    }
  }

  /** A non-empty string of whitespace collapses to one space. */
  lemma {:induction false} CollapseRun(ws: string)
    requires |ws| > 0
    requires forall k :: 0 <= k < |ws| ==> IsSpace(ws[k])
    ensures CollapseWhitespace(ws) == " "
  {
    assert DropLeadingSpace(ws[1..]) == "";
  }

  /**
   The first pass works run by run: cutting the input anywhere except inside a
   run of whitespace, the two halves collapse independently. With `CollapseRun`
   this pins the pass down completely.
   */
  lemma {:induction false} CollapseAppend(a: string, b: string)
    requires |a| == 0 || |b| == 0 || !IsSpace(a[|a| - 1]) || !IsSpace(b[0])
    ensures CollapseWhitespace(a + b) == CollapseWhitespace(a) + CollapseWhitespace(b)
    decreases |a|, 1
  {
    if |b| == 0 {
      assert a + b == a;
    } else if |a| == 0 {
      assert a + b == b;
    } else if !IsSpace(a[0]) {
      CollapseAppendWordHead(a, b);
    } else if DropLeadingSpace(a[1..]) == "" {
      CollapseAppendAfterRun(a, b);
    } else {
      CollapseAppendRunHead(a, b);
    }
  }

  /** `CollapseAppend` when `a` starts with a non-space character. */
  lemma {:induction false} CollapseAppendWordHead(a: string, b: string)
    requires |a| > 0 && |b| > 0 && !IsSpace(a[0])
    requires !IsSpace(a[|a| - 1]) || !IsSpace(b[0])
    ensures CollapseWhitespace(a + b) == CollapseWhitespace(a) + CollapseWhitespace(b)
    decreases |a|, 0
  {
    var s := a + b;
    assert s[0] == a[0];
    assert s[1..] == a[1..] + b;
    CollapseAppend(a[1..], b);
    assert CollapseWhitespace(s) == [a[0]] + CollapseWhitespace(a[1..] + b);
  }

  /** `CollapseAppend` when `a` starts with a run of whitespace followed by more text. */
  lemma {:induction false} CollapseAppendRunHead(a: string, b: string)
    requires |a| > 0 && |b| > 0 && IsSpace(a[0]) && DropLeadingSpace(a[1..]) != ""
    requires !IsSpace(a[|a| - 1]) || !IsSpace(b[0])
    ensures CollapseWhitespace(a + b) == CollapseWhitespace(a) + CollapseWhitespace(b)
    decreases |a|, 0
  {
    var a1 := a[1..];
    var t := DropLeadingSpace(a1);
    SplitFirst(a, b);
    DropRunAppend(a1, b);
    DropLeadingSpaceLast(a1);
    CollapseOfSpaceCons(a[0], a1 + b);
    CollapseOfSpaceCons(a[0], a1);
    assert a1[|a1| - 1] == a[|a| - 1];
    CollapseAppend(t, b);
    Regroup(CollapseWhitespace(a + b), CollapseWhitespace(a), CollapseWhitespace(t + b),
            " ", CollapseWhitespace(t), CollapseWhitespace(b));
  }

  /** When `s` holds a non-space character, dropping the leading whitespace of `s + b` stays inside `s`. */
  lemma {:induction false} DropRunAppend(s: string, b: string)
    requires DropLeadingSpace(s) != ""
    ensures DropLeadingSpace(s + b) == DropLeadingSpace(s) + b
    decreases |s|
  {
    assert (s + b)[0] == s[0];
    if IsSpace(s[0]) {
      assert (s + b)[1..] == s[1..] + b;
      DropRunAppend(s[1..], b);
    }
  }

  /** What is left after dropping leading whitespace ends where the input ends. */
  lemma DropLeadingSpaceLast(s: string)
    requires DropLeadingSpace(s) != ""
    ensures var t := DropLeadingSpace(s); t[|t| - 1] == s[|s| - 1]
  {
  }

  /** A whitespace character in front of `rest` collapses with the run that starts `rest`. */
  lemma CollapseOfSpaceCons(c: char, rest: string)
    requires IsSpace(c)
    ensures CollapseWhitespace([c] + rest) == " " + CollapseWhitespace(DropLeadingSpace(rest))
  {
    assert ([c] + rest)[1..] == rest;
  }

  /** A string starting with a non-space character keeps it and collapses the rest. */
  lemma CollapseOfWordHead(s: string)
    requires |s| > 0 && !IsSpace(s[0])
    ensures CollapseWhitespace(s) == [s[0]] + CollapseWhitespace(s[1..])
  {
  }

  /** A string starting with whitespace collapses to one space and the collapse of what follows the run. */
  lemma CollapseOfRunHead(s: string, t: string)
    requires |s| > 0 && IsSpace(s[0]) && DropLeadingSpace(s[1..]) == t
    ensures CollapseWhitespace(s) == " " + CollapseWhitespace(t)
  {
  }

  /** `CollapseAppend` when `a` is one run of whitespace. */
  lemma CollapseAppendAfterRun(a: string, b: string)
    requires |a| > 0 && IsSpace(a[0]) && DropLeadingSpace(a[1..]) == ""
    requires |b| == 0 || !IsSpace(a[|a| - 1]) || !IsSpace(b[0])
    ensures CollapseWhitespace(a + b) == CollapseWhitespace(a) + CollapseWhitespace(b)
  {
    var a1 := a[1..];
    assert IsSpace(a[|a| - 1]) by {
      if |a| > 1 { assert a1[|a| - 2] == a[|a| - 1]; }
    }
    DropLeadingSpaceOfSpaces(a1, b);
    SplitFirst(a, b);
    CollapseOfSpaceCons(a[0], a1 + b);
    CollapseOfSpaceCons(a[0], a1);
    assert CollapseWhitespace("") == "";
    Regroup(CollapseWhitespace(a + b), CollapseWhitespace(a), CollapseWhitespace(b), " ", "", CollapseWhitespace(b));
  }

  lemma {:induction false} DropLeadingSpaceOfSpaces(ws: string, b: string)
    requires forall k :: 0 <= k < |ws| ==> IsSpace(ws[k])
    requires |b| == 0 || !IsSpace(b[0])
    ensures DropLeadingSpace(ws + b) == b
    decreases |ws|
  {
    if |ws| == 0 {
      assert ws + b == b;
    } else {
      assert (ws + b)[1..] == ws[1..] + b;
      DropLeadingSpaceOfSpaces(ws[1..], b);
    }
  }

  // ---------------------------------------------------------------------------
  // Pass 2: `[\{\(\[].*?[\}\)\]]` -> ''

  /**
   Offset of the nearest closer in `s` with no line break before it; `None`
   when a line break or the end of `s` comes first (`.` does not match '\n').
   */
  function NearestCloser(s: string): (r: Option<nat>)
    ensures r.Some? ==> r.value < |s| && IsCloser(s[r.value])
    ensures r.Some? ==> forall k :: 0 <= k < r.value ==> !IsCloser(s[k]) && s[k] != '\n'
    ensures r.None? ==> forall k {:trigger IsCloser(s[k])} :: 0 <= k < |s| && IsCloser(s[k]) ==> exists m :: 0 <= m < k && s[m] == '\n'
  {
    if |s| == 0 || s[0] == '\n' then None
    else if IsCloser(s[0]) then Some(0)
    else
      match NearestCloser(s[1..])
      case None =>
        assert forall k :: 1 <= k < |s| ==> s[1..][k - 1] == s[k];
        None
      case Some(k) => Some(k + 1)
  }

  /**
   The second pass: scanning left to right, an opener `( [ {` and everything up
   to the nearest following closer `) ] }` are deleted; the kinds need not match.
   An opener with no closer before the next line break is kept.
   */
  function StripAsides(s: string): (r: string)
    ensures |r| <= |s|
    decreases |s|
  {
    if |s| == 0 then ""
    else if IsOpener(s[0]) && NearestCloser(s[1..]).Some? then
      StripAsides(s[1..][NearestCloser(s[1..]).value + 1..])
    else [s[0]] + StripAsides(s[1..])
  }

  /**
   No bracketed aside is left: reading from the left, no opener is followed by
   a closer on the same line.
   */
  predicate NoAside(s: string)
    decreases |s|
  {
    |s| == 0 || ((IsOpener(s[0]) ==> NearestCloser(s[1..]).None?) && NoAside(s[1..]))
  }

  lemma {:induction false} NoCloserSurvives(s: string)
    requires NearestCloser(s).None?
    ensures NearestCloser(StripAsides(s)).None?
    decreases |s|
  {
    if |s| > 0 && s[0] != '\n' {
      assert !IsCloser(s[0]);
      assert NearestCloser(s[1..]).None?;
      NoCloserSurvives(s[1..]);
      var r := StripAsides(s);
      assert r == [s[0]] + StripAsides(s[1..]);
      assert r[1..] == StripAsides(s[1..]);
    }
  }

  /** After the second pass no opener has a closer after it on the same line. */
  lemma {:induction false} StripAsidesLeavesNoAside(s: string)
    ensures NoAside(StripAsides(s))
    decreases |s|
  {
    if |s| > 0 {
      if IsOpener(s[0]) && NearestCloser(s[1..]).Some? {
        StripAsidesLeavesNoAside(s[1..][NearestCloser(s[1..]).value + 1..]);
      } else {
        StripAsidesLeavesNoAside(s[1..]);
        if IsOpener(s[0]) {
          NoCloserSurvives(s[1..]);
        }
        NoAsideCons(s[0], StripAsides(s[1..]));
      }
    }
  }

  lemma NoAsideCons(x: char, t: string)
    requires NoAside(t)
    requires IsOpener(x) ==> NearestCloser(t).None?
    ensures NoAside([x] + t)
  {
    assert ([x] + t)[1..] == t;
  }

  /** A prefix without openers is kept verbatim by the second pass. */
  lemma {:induction false} StripAsidesKeepsPrefix(a: string, x: string)
    requires forall k :: 0 <= k < |a| ==> !IsOpener(a[k])
    ensures StripAsides(a + x) == a + StripAsides(x)
    decreases |a|
  {
    if |a| > 0 {
      assert (a + x)[0] == a[0];
      assert (a + x)[1..] == a[1..] + x;
      StripAsidesKeepsPrefix(a[1..], x);
      assert [a[0]] + (a[1..] + StripAsides(x)) == a + StripAsides(x);
    } else {
      assert a + x == x;
    }
  }

  /**
   The second pass on the shape it targets: text without openers, an opener,
   an aside free of closers and line breaks, a closer, and the rest. The aside
   with its brackets is deleted; the text before it is kept.
   */
  lemma StripAsidesRemovesAside(a: string, open: char, aside: string, close: char, rest: string)
    requires forall k :: 0 <= k < |a| ==> !IsOpener(a[k])
    requires IsOpener(open) && IsCloser(close)
    requires forall k :: 0 <= k < |aside| ==> !IsCloser(aside[k]) && aside[k] != '\n'
    ensures StripAsides(a + [open] + aside + [close] + rest) == a + StripAsides(rest)
  {
    var x := [open] + aside + [close] + rest;
    assert a + [open] + aside + [close] + rest == a + x;
    StripAsidesKeepsPrefix(a, x);
    StripAsidesDropsLeadingAside(open, aside, close, rest);
  }

  /**
   An opener with no closer before the end of its line is no aside: it is kept,
   and the pass carries on right after it.
   */
  lemma StripAsidesKeepsUnmatched(open: char, x: string)
    requires IsOpener(open) && NearestCloser(x).None?
    ensures StripAsides([open] + x) == [open] + StripAsides(x)
  {
    assert ([open] + x)[1..] == x;
  }

  /** An aside at the very start is deleted together with its brackets. */
  lemma StripAsidesDropsLeadingAside(open: char, aside: string, close: char, rest: string)
    requires IsOpener(open) && IsCloser(close)
    requires forall k :: 0 <= k < |aside| ==> !IsCloser(aside[k]) && aside[k] != '\n'
    ensures StripAsides([open] + aside + [close] + rest) == StripAsides(rest)
  {
    var x := [open] + aside + [close] + rest;
    assert x[1..] == aside + [close] + rest;
    NearestCloserAfterAside(aside, close, rest);
    assert x[1..][|aside| + 1..] == rest;
  }

  lemma {:induction false} NearestCloserAfterAside(aside: string, close: char, rest: string)
    requires IsCloser(close)
    requires forall k :: 0 <= k < |aside| ==> !IsCloser(aside[k]) && aside[k] != '\n'
    ensures NearestCloser(aside + [close] + rest) == Some(|aside|)
    decreases |aside|
  {
    if |aside| > 0 {
      assert (aside + [close] + rest)[1..] == aside[1..] + [close] + rest;
      NearestCloserAfterAside(aside[1..], close, rest);
    }
  }

  // ---------------------------------------------------------------------------
  // Pass 3: `^.*:` -> ''

  /** Length of the first line of `s`: the offset of the first '\n', or `|s|`. */
  function FirstLineLength(s: string): (n: nat)
    ensures n <= |s|
    ensures '\n' !in s[..n]
    ensures n < |s| ==> s[n] == '\n'
  {
    if |s| == 0 || s[0] == '\n' then 0
    else
      var n := FirstLineLength(s[1..]);
      assert s[..n + 1] == [s[0]] + s[1..][..n];
      n + 1
  }

  /** Offset of the last ':' in `s`, if any. */
  function LastColon(s: string): (r: Option<nat>)
    ensures r.None? ==> ':' !in s
    ensures r.Some? ==> r.value < |s| && s[r.value] == ':' && ':' !in s[r.value + 1..]
    decreases |s|
  {
    if |s| == 0 then None
    else if s[|s| - 1] == ':' then Some(|s| - 1)
    else
      var r := LastColon(s[..|s| - 1]);
      LastColonExtends(s, s[..|s| - 1], r);
      r
  }

  /** Appending a character other than ':' keeps the answer about the last colon. */
  lemma LastColonExtends(s: string, init: string, r: Option<nat>)
    requires |s| > 0 && init == s[..|s| - 1] && s[|s| - 1] != ':'
    requires r.None? ==> ':' !in init
    requires r.Some? ==> r.value < |init| && init[r.value] == ':' && ':' !in init[r.value + 1..]
    ensures r.None? ==> ':' !in s
    ensures r.Some? ==> r.value < |s| && s[r.value] == ':' && ':' !in s[r.value + 1..]
  {
    assert s == init + [s[|s| - 1]];
    if r.Some? {
      assert s[r.value + 1..] == init[r.value + 1..] + [s[|s| - 1]];
    }
  }

  /**
   The third pass drops a speaker prefix: the pattern is anchored at the start
   and greedy, so everything up to and including the LAST colon of the first
   line goes. The result is a suffix of the input whose first line holds no
   colon; input whose first line has no colon is returned unchanged.
   */
  function DropSpeaker(s: string): (r: string)
    ensures |r| <= |s| && r == s[|s| - |r|..]
    ensures ':' !in s[..FirstLineLength(s)] ==> r == s
    ensures r != s ==> s[|s| - |r| - 1] == ':' && '\n' !in s[..|s| - |r|]
    ensures forall k :: 0 <= k < |r| && r[k] == ':' ==> '\n' in r[..k]
  {
    var n := FirstLineLength(s);
    match LastColon(s[..n])
    case None =>
      FirstLineColonFree(s, n);
      s
    case Some(c) =>
      SpeakerCut(s, n, c);
      s[c + 1..]
  }

  /** When the first line, `s[..n]`, holds no colon, every colon of `s` comes after a line break. */
  lemma FirstLineColonFree(s: string, n: nat)
    requires n <= |s| && (n < |s| ==> s[n] == '\n') && ':' !in s[..n]
    ensures forall k :: 0 <= k < |s| && s[k] == ':' ==> '\n' in s[..k]
  {
    assert forall k :: 0 <= k < n ==> s[..n][k] == s[k];
    forall k | 0 <= k < |s| && s[k] == ':' ensures '\n' in s[..k] {
      assert s[..k][n] == '\n';
    }
  }

  /**
   Cutting after `c`, the last colon of the first line `s[..n]`, removes no
   line break and leaves no colon before the first remaining line break.
   */
  lemma SpeakerCut(s: string, n: nat, c: nat)
    requires n <= |s| && (n < |s| ==> s[n] == '\n') && '\n' !in s[..n]
    requires c < n && s[c] == ':' && ':' !in s[..n][c + 1..]
    ensures var r := s[c + 1..];
      && s[|s| - |r|..] == r && s[|s| - |r| - 1] == ':' && '\n' !in s[..|s| - |r|]
      && forall k :: 0 <= k < |r| && r[k] == ':' ==> '\n' in r[..k]
  {
    var r := s[c + 1..];
    assert s[..c + 1] == s[..n][..c + 1];
    assert forall k :: 0 <= k < n - c - 1 ==> s[..n][c + 1..][k] == r[k];
    forall k | 0 <= k < |r| && r[k] == ':' ensures '\n' in r[..k] {
      assert r[..k][n - c - 1] == '\n';
    }
  }

  // ---------------------------------------------------------------------------
  // Pass 4: `[^a-zA-Z0-9_' \.]` -> ''

  /** The fourth pass: the whitelisted characters of `s`, in order. */
  function KeepAllowed(s: string): (r: string)
    ensures |r| <= |s|
    ensures forall k :: 0 <= k < |r| ==> IsAllowed(r[k])
    ensures (forall k :: 0 <= k < |s| ==> IsAllowed(s[k])) ==> r == s
    ensures multiset(r) <= multiset(s)
  {
    if |s| == 0 then ""
    else
      assert s == [s[0]] + s[1..];
      (if IsAllowed(s[0]) then [s[0]] else "") + KeepAllowed(s[1..])
  }

  /** The fourth pass is a filter: it works on the two halves of any cut independently. */
  lemma {:induction false} KeepAllowedAppend(a: string, b: string)
    ensures KeepAllowed(a + b) == KeepAllowed(a) + KeepAllowed(b)
    decreases |a|
  {
    if |a| > 0 {
      assert (a + b)[0] == a[0];
      assert (a + b)[1..] == a[1..] + b;
      KeepAllowedAppend(a[1..], b);
    } else {
      assert a + b == b;
    }
  }

  // ---------------------------------------------------------------------------
  // strip() and lower()

  /** Offset of the first non-whitespace character, or `|s|`. */
  function SpaceBefore(s: string): (n: nat)
    ensures n <= |s|
    ensures forall k :: 0 <= k < n ==> IsSpace(s[k])
    ensures n < |s| ==> !IsSpace(s[n])
  {
    if |s| == 0 || !IsSpace(s[0]) then 0 else SpaceBefore(s[1..]) + 1
  }

  /** Length of `s` without its trailing whitespace. */
  function SpaceAfter(s: string): (n: nat)
    ensures n <= |s|
    ensures forall k :: n <= k < |s| ==> IsSpace(s[k])
    ensures n > 0 ==> !IsSpace(s[n - 1])
    decreases |s|
  {
    if |s| == 0 || !IsSpace(s[|s| - 1]) then |s| else SpaceAfter(s[..|s| - 1])
  }

  /**
   `str.strip()`: the input is whitespace, then the result, then whitespace,
   and the result neither starts nor ends with whitespace.
   */
  function Strip(s: string): (r: string)
    ensures |r| > 0 ==> !IsSpace(r[0]) && !IsSpace(r[|r| - 1])
    ensures SpaceBefore(s) + |r| <= |s| && r == s[SpaceBefore(s)..SpaceBefore(s) + |r|]
    ensures forall k :: 0 <= k < |s| && !(SpaceBefore(s) <= k < SpaceBefore(s) + |r|) ==> IsSpace(s[k])
  {
    var i := SpaceBefore(s);
    var j := SpaceAfter(s);
    if i < j then s[i..j]
    else
      assert i == |s|;
      ""
  }

  function ToLower(c: char): (r: char)
    ensures IsUpper(c) ==> 'a' <= r <= 'z' && r as int == c as int + 32
    ensures !IsUpper(c) ==> r == c
    ensures IsAllowed(c) ==> IsCleanChar(r)
  {
    if IsUpper(c) then (c as int + 32) as char else c
  }

  /** `str.lower()` on the whitelisted alphabet: upper-case letters map to lower case, the rest stays. */
  function Lower(s: string): (r: string)
    ensures |r| == |s|
    ensures forall k :: 0 <= k < |s| ==> r[k] == ToLower(s[k])
  {
    seq(|s|, k requires 0 <= k < |s| => ToLower(s[k]))
  }

  // ---------------------------------------------------------------------------
  // The whole pipeline

  /** The four regular-expression passes, in the source's order. */
  function RegexPasses(s: string): (r: string)
    ensures |r| <= |s|
    ensures AllAllowed(r)
  {
    KeepAllowed(DropSpeaker(StripAsides(CollapseWhitespace(s))))
  }

  /** Whitelisted characters only. */
  predicate AllAllowed(s: string)
  {
    forall k :: 0 <= k < |s| ==> IsAllowed(s[k])
  }

  lemma StripKeepsAllowed(s: string)
    requires AllAllowed(s)
    ensures AllAllowed(Strip(s))
  {
    var stripped := Strip(s);
    var i := SpaceBefore(s);
    forall k | 0 <= k < |stripped| ensures IsAllowed(stripped[k]) {
      assert stripped[k] == s[i + k];
    }
  }

  lemma LowerMakesClean(s: string)
    requires AllAllowed(s)
    requires |s| > 0 ==> !IsSpace(s[0]) && !IsSpace(s[|s| - 1])
    ensures forall k :: 0 <= k < |Lower(s)| ==> IsCleanChar(Lower(s)[k])
    ensures |s| > 0 ==> Lower(s)[0] != ' ' && Lower(s)[|s| - 1] != ' '
  {
    var r := Lower(s);
    assert |r| > 0 ==> r[0] == ToLower(s[0]) && r[|r| - 1] == ToLower(s[|r| - 1]);
  }

  /** `strip().lower()` maps whitelisted text to clean text without a space at either end. */
  function StripLower(s: string): (r: string)
    requires AllAllowed(s)
    ensures |r| <= |s|
    ensures forall k :: 0 <= k < |r| ==> IsCleanChar(r[k])
    ensures |r| > 0 ==> r[0] != ' ' && r[|r| - 1] != ' '
  {
    StripKeepsAllowed(s);
    LowerMakesClean(Strip(s));
    Lower(Strip(s))
  }

  /**
   `clean_caption_text`. Its output uses only `[a-z0-9_' .]`, never starts or
   ends with a space, and is never longer than its input.
   */
  function Clean(s: string): (r: string)
    ensures forall k :: 0 <= k < |r| ==> IsCleanChar(r[k])
    ensures |r| > 0 ==> r[0] != ' ' && r[|r| - 1] != ' '
    ensures |r| <= |s|
  {
    StripLower(RegexPasses(s))
  }

  /** Text already in normal form: clean characters, single spaces, no space at either end. */
  predicate IsNormal(s: string)
  {
    && (forall k :: 0 <= k < |s| ==> IsCleanChar(s[k]))
    && SingleSpaced(s)
    && (|s| > 0 ==> s[0] != ' ' && s[|s| - 1] != ' ')
  }

  /** Single-spaced text is left alone by the first pass. */
  lemma {:induction false} CollapseKeepsSingleSpaced(s: string)
    requires SingleSpaced(s)
    ensures CollapseWhitespace(s) == s
    decreases |s|
  {
    if |s| > 0 {
      if IsSpace(s[0]) {
        assert |s| > 1 ==> !IsSpace(s[1]);
        assert DropLeadingSpace(s[1..]) == s[1..];
      }
      assert SingleSpaced(s[1..]) by {
        assert forall k :: 0 <= k < |s| - 1 ==> s[1..][k] == s[k + 1];
      }
      CollapseKeepsSingleSpaced(s[1..]);
      assert s == [s[0]] + s[1..];
    }
  }

  lemma RegexPassesKeepNormal(s: string)
    requires IsNormal(s)
    ensures RegexPasses(s) == s
  {
    CollapseKeepsSingleSpaced(s);
    assert StripAsides(s) == s by {
      assert forall k :: 0 <= k < |s| ==> !IsOpener(s[k]);
      StripAsidesKeepsPrefix(s, "");
      assert s + "" == s;
    }
    assert DropSpeaker(s) == s by {
      assert ':' !in s;
    }
  }

  lemma StripLowerKeepsNormal(s: string)
    requires IsNormal(s)
    ensures AllAllowed(s) && StripLower(s) == s
  {
    assert Strip(s) == s by {
      if |s| > 0 {
        assert SpaceBefore(s) == 0;
        assert SpaceAfter(s) == |s|;
      }
    }
    assert Lower(s) == s;
  }

  /** Text already in normal form passes through the normaliser unchanged. */
  lemma CleanKeepsNormal(s: string)
    requires IsNormal(s)
    ensures Clean(s) == s
  {
    RegexPassesKeepNormal(s);
    StripLowerKeepsNormal(s);
  }

  // ---------------------------------------------------------------------------
  // Why the normaliser is not idempotent

  lemma ExampleIsSingleSpaced(s: string)
    requires s == "a (x) b"
    ensures CollapseWhitespace(s) == s
  {
    assert SingleSpaced(s);
    CollapseKeepsSingleSpaced(s);
  }

  lemma ExampleAsideLeavesTwoSpaces(s: string, t: string)
    requires s == "a (x) b" && t == "a  b"
    ensures StripAsides(s) == t
  {
    StripAsidesRemovesAside("a ", '(', "x", ')', " b");
    assert "a " + ['('] + "x" + [')'] + " b" == s;
    StripAsidesKeepsPrefix(" b", "");
    assert " b" + "" == " b";
    assert "a " + " b" == t;
  }

  lemma ExampleLaterPassesKeepTwoSpaces(t: string)
    requires t == "a  b"
    ensures KeepAllowed(DropSpeaker(t)) == t && StripLower(t) == t
  {
    assert ':' !in t[..FirstLineLength(t)];
    assert AllAllowed(t);
    assert SpaceBefore(t) == 0;
    assert SpaceAfter(t) == |t|;
    assert Strip(t) == t;
    assert Lower(t) == t;
  }

  /** Removing an aside between two spaces leaves the two spaces side by side. */
  lemma ExampleCleanKeepsTwoSpaces(s: string, t: string)
    requires s == "a (x) b" && t == "a  b"
    ensures Clean(s) == t
  {
    ExampleIsSingleSpaced(s);
    ExampleAsideLeavesTwoSpaces(s, t);
    ExampleLaterPassesKeepTwoSpaces(t);
    assert RegexPasses(s) == t;
  }

  lemma ExampleTwoSpacesCollapse(t: string, u: string)
    requires t == "a  b" && u == "a b"
    ensures CollapseWhitespace(t) == u
  {
    TwoSpacesCollapse('a', 'b');
  }

  /** Two spaces between two words collapse to one. */
  lemma TwoSpacesCollapse(x: char, y: char)
    requires !IsSpace(x) && !IsSpace(y)
    ensures CollapseWhitespace([x, ' ', ' ', y]) == [x, ' ', y]
  {
    var s := [x, ' ', ' ', y];
    assert s[1..] == [' ', ' ', y];
    CollapseOfWordHead(s);
    SpacesBeforeWordCollapse(y);
  }

  lemma SpacesBeforeWordCollapse(y: char)
    requires !IsSpace(y)
    ensures CollapseWhitespace([' ', ' ', y]) == [' ', y]
  {
    var s := [' ', ' ', y];
    assert s[1..] == [' ', y];
    DropSpaceBeforeWord(y);
    CollapseOfRunHead(s, [y]);
    WordCollapse(y);
  }

  lemma WordCollapse(y: char)
    requires !IsSpace(y)
    ensures CollapseWhitespace([y]) == [y]
  {
    CollapseOfWordHead([y]);
    assert [y][1..] == [];
  }

  lemma DropSpaceBeforeWord(y: char)
    requires !IsSpace(y)
    ensures DropLeadingSpace([' ', y]) == [y]
  {
    assert [' ', y][1..] == [y];
  }

  /** A second run of the normaliser collapses the two spaces. */
  lemma ExampleCleanAgainCollapses(t: string, u: string)
    requires t == "a  b" && u == "a b"
    ensures Clean(t) == u
  {
    ExampleTwoSpacesCollapse(t, u);
    ExampleIsNormal(u);
    CollapseKeepsSingleSpaced(u);
    RegexPassesAfterCollapse(t, u);
    RegexPassesKeepNormal(u);
    StripLowerKeepsNormal(u);
  }

  lemma ExampleIsNormal(u: string)
    requires u == "a b"
    ensures IsNormal(u)
  {
    assert forall k :: 0 <= k < |u| ==> u[k] == 'a' || u[k] == ' ' || u[k] == 'b';
  }

  /** The later passes see only what the first pass leaves. */
  lemma RegexPassesAfterCollapse(s: string, t: string)
    requires CollapseWhitespace(s) == CollapseWhitespace(t)
    ensures RegexPasses(s) == RegexPasses(t)
  {
  }

  /**
   The normaliser is not idempotent: the first pass collapses whitespace before
   the second removes asides, so "a (x) b" comes out with two spaces in a row,
   which a second run would collapse. Its output can hold empty tokens.
   */
  lemma CleanNotIdempotent(s: string, t: string, u: string)
    requires s == "a (x) b" && t == "a  b" && u == "a b"
    ensures Clean(s) == t && Clean(Clean(s)) == u && Clean(Clean(s)) != Clean(s)
  {
    ExampleCleanKeepsTwoSpaces(s, t);
    ExampleCleanAgainCollapses(t, u);
    assert |t| != |u|;
  }
}

=== FILE: planner.dfy ===
/**
 `generate_action_plan` of src/masher.py: a cursor walks the cleaned query and
 emits, at each position, a `clip` action when the matcher finds a caption the
 run covers exactly, a `generate` action carrying the range list when it does
 not, and a `sythesize` action for a maximal run of words the corpus lacks.
 */
module Planner {
  import opened Wrappers
  import opened Text
  import opened Normalize
  import opened Corpus
  import opened Matcher
  import opened Seqs

  /** One entry of the action plan. */
  datatype Action =
    | Clip(captionId: nat, size: nat)
    | Generate(ranges: seq<Level>)
    | Synthesize(words: seq<string>)

  /** How many query words an action consumes: the cursor advance after it. */
  function Span(a: Action): nat
  {
    match a
    case Clip(_, n) => n
    case Generate(ranges) => |ranges|
    case Synthesize(ws) => |ws|
  }

  /** The total number of query words a plan consumes. */
  function SpanSum(plan: seq<Action>): nat
  {
    if |plan| == 0 then 0 else Span(plan[0]) + SpanSum(plan[1..])
  }

  /**
   Every word the membership flags mark as present has at least one row, so
   the first lookup of the matcher finds something. Without it a `generate`
   action of zero levels would leave the cursor in place for ever.
   */
  ghost predicate IndexConsistent(rows: seq<WordRow>, words: seq<string>, db: seq<bool>)
    requires |words| == |db|
  {
    forall k :: 0 <= k < |words| && db[k] ==> HasWord(rows, words[k])
  }

  /** The end of the run of words not in the corpus that starts at `i`. */
  function RunEnd(db: seq<bool>, i: nat): (e: nat)
    requires i <= |db|
    ensures i <= e <= |db|
    ensures forall k :: i <= k < e ==> !db[k]
    ensures e < |db| ==> db[e]
    decreases |db| - i
  {
    if i == |db| || db[i] then i else RunEnd(db, i + 1)
  }

  /**
   One turn of the cursor loop at position `i`. A word of the corpus starts a
   range list; `lucky_check` turns it into a clip or, failing that, the list
   becomes a `generate` action. A word outside the corpus starts a
   `sythesize` action over the run of such words.
   */
  function Step(rows: seq<WordRow>, words: seq<string>, db: seq<bool>, i: nat): (a: Action)
    requires i < |words| == |db|
    ensures i + Span(a) <= |words|
    ensures a.Synthesize? <==> !db[i]
    ensures db[i] && HasWord(rows, words[i]) ==> Span(a) >= 1
    ensures db[i] && !HasWord(rows, words[i]) ==> a == Generate([])
    ensures !db[i] ==> Span(a) >= 1
  {
    if db[i] then
      var ranges := MaxWordRange(rows, words, i, db);
      match LuckyCheck(ranges)
      case Some(hit) => Clip(hit.captionId, hit.size)
      case None => Generate(ranges)
    else
      Synthesize(words[i..RunEnd(db, i)])
  }

  /**
   The action the cursor loop would emit at each position of the query. The
   loop reads only the entries at the positions the cursor stops at; every
   entry is a pure function of its position, so reading them off a table
   gives the same plan as computing them one turn at a time.
   */
  function Steps(rows: seq<WordRow>, words: seq<string>, db: seq<bool>): (steps: seq<Action>)
    requires |words| == |db|
    ensures |steps| == |words|
    ensures forall k :: 0 <= k < |steps| ==> steps[k] == Step(rows, words, db, k)
  {
    seq(|words|, k requires 0 <= k < |words| => Step(rows, words, db, k))
  }

  /** Each entry of the table advances the cursor and stays inside the query. */
  ghost predicate Advances(steps: seq<Action>)
  {
    forall k :: 0 <= k < |steps| ==> 1 <= Span(steps[k]) && k + Span(steps[k]) <= |steps|
  }

  /** With flags consistent with the rows, every cursor step advances: the loop cannot stall. */
  lemma StepsAdvance(rows: seq<WordRow>, words: seq<string>, db: seq<bool>)
    requires |words| == |db| && IndexConsistent(rows, words, db)
    ensures Advances(Steps(rows, words, db))
  {
    var steps := Steps(rows, words, db);
    forall k | 0 <= k < |steps| ensures 1 <= Span(steps[k]) && k + Span(steps[k]) <= |steps| {
      assert db[k] ==> HasWord(rows, words[k]);
    }
  }

  /**
   The cursor loop from position `i` to the end of the query: emit the step
   at the cursor and move the cursor by its span. The spans add up to the
   words left.
   */
  function PlanFrom(steps: seq<Action>, i: nat): (plan: seq<Action>)
    requires i <= |steps| && Advances(steps)
    ensures SpanSum(plan) == |steps| - i
    ensures forall k :: 0 <= k < |plan| ==> Span(plan[k]) >= 1
    decreases |steps| - i
  {
    if i == |steps| then []
    else
      var a := steps[i];
      var rest := PlanFrom(steps, i + Span(a));
      var plan := [a] + rest;
      assert plan[1..] == rest;
      plan
  }

  /**
   Caption `cid` is, token for token, the word list `ws`: its rows at positions
   `0..|ws| - 1` spell `ws` and a row of it records `|ws|` tokens.
   */
  ghost predicate ExactCaption(rows: seq<WordRow>, cid: nat, ws: seq<string>)
  {
    && Spells(rows, cid, 0, ws)
    && exists x :: x in rows && x.captionId == cid && x.length == |ws|
  }

  /** Every flag in `db[i..j]` is set. */
  ghost predicate AllInCorpus(db: seq<bool>, i: nat, j: nat)
    requires i <= j <= |db|
  {
    forall k :: i <= k < j ==> db[k]
  }

  /**
   What an action emitted at cursor `i` promises about the query words it
   consumes, `words[i..i + Span(a)]`.
   */
  ghost predicate Fits(rows: seq<WordRow>, words: seq<string>, db: seq<bool>, i: nat, a: Action)
    requires |words| == |db|
  {
    && i + Span(a) <= |words|
    && Span(a) >= 1
    && match a
       case Synthesize(ws) =>
         && ws == words[i..i + |ws|]
         && (forall k :: i <= k < i + |ws| ==> !db[k])
         && (i + |ws| < |words| ==> db[i + |ws|])
       case Clip(cid, n) =>
         && AllInCorpus(db, i, i + n)
         && ExactCaption(rows, cid, words[i..i + n])
       case Generate(ranges) =>
         && AllInCorpus(db, i, i + |ranges|)
         && IsRangeList(rows, words, db, i, ranges)
         && StopsWhenStuck(rows, words, db, i, ranges)
         && forall d :: 0 <= d < |ranges| ==> !ExactAt(ranges, d)
  }

  /** The plan consumes `words[i..]` action by action, each action fitting the words it consumes. */
  ghost predicate Covers(rows: seq<WordRow>, words: seq<string>, db: seq<bool>, plan: seq<Action>, i: nat)
    requires |words| == |db|
    decreases |plan|
  {
    if |plan| == 0 then i == |words|
    else Fits(rows, words, db, i, plan[0]) && Covers(rows, words, db, plan[1..], i + Span(plan[0]))
  }

  /** The flags of the levels of a range list are all set. */
  lemma RangeListInCorpus(rows: seq<WordRow>, words: seq<string>, db: seq<bool>, i: nat, ranges: seq<Level>)
    requires i < |words| == |db| && db[i]
    requires IsRangeList(rows, words, db, i, ranges)
    ensures AllInCorpus(db, i, i + |ranges|)
  {
    forall k | i < k < i + |ranges| ensures db[k] {
      assert ChainStep(rows, words, db, i, ranges, k - i);
    }
  }

  /**
   On well-formed rows a row of level `n - 1` of a range list whose caption has
   `n` tokens ends a run that starts at position 0: the caption is, token for
   token, the `n` query words from `i`.
   */
  lemma ExactLevelRowIsCaption(rows: seq<WordRow>, words: seq<string>, db: seq<bool>, i: nat,
                               ranges: seq<Level>, n: nat, x: WordRow)
    requires i < |words| == |db| && IsRangeList(rows, words, db, i, ranges)
    requires WellFormedRows(rows)
    requires 1 <= n <= |ranges| && x in ranges[n - 1] && x.length == n
    ensures ExactCaption(rows, x.captionId, words[i..i + n])
  {
    LevelRowEndsRun(rows, words, db, i, ranges, n - 1, x);
    assert x.index < x.length;
  }

  /** A hit of `lucky_check` on a range list fits: its caption is exactly the words it consumes. */
  lemma HitFits(rows: seq<WordRow>, words: seq<string>, db: seq<bool>, i: nat, ranges: seq<Level>, hit: Hit)
    requires i < |words| == |db| && db[i] && IsRangeList(rows, words, db, i, ranges)
    requires WellFormedRows(rows)
    requires FirstExactIn(ranges, hit)
    ensures Fits(rows, words, db, i, Clip(hit.captionId, hit.size))
  {
    var x := FirstExact(ranges[hit.size - 1], hit.size).value;
    ExactLevelRowIsCaption(rows, words, db, i, ranges, hit.size, x);
    RangeListInCorpus(rows, words, db, i, ranges);
  }

  /** Each action `Step` emits fits the words it consumes. */
  lemma StepFits(rows: seq<WordRow>, words: seq<string>, db: seq<bool>, i: nat)
    requires i < |words| == |db|
    requires WellFormedRows(rows) && IndexConsistent(rows, words, db)
    ensures Fits(rows, words, db, i, Step(rows, words, db, i))
  {
    if db[i] {
      assert HasWord(rows, words[i]);
      var ranges := MaxWordRange(rows, words, i, db);
      MaxWordRangeIsRangeList(rows, words, i, db);
      if LuckyCheck(ranges).Some? {
        HitFits(rows, words, db, i, ranges, LuckyCheck(ranges).value);
      } else {
        RangeListInCorpus(rows, words, db, i, ranges);
      }
    }
  }

  /** Every entry of the table fits the words it would consume. */
  ghost predicate AllFit(rows: seq<WordRow>, words: seq<string>, db: seq<bool>, steps: seq<Action>)
    requires |words| == |db|
  {
    |steps| == |words| && forall k :: 0 <= k < |steps| ==> Fits(rows, words, db, k, steps[k])
  }

  /** On well-formed rows and consistent flags every cursor step fits. */
  lemma StepsFit(rows: seq<WordRow>, words: seq<string>, db: seq<bool>)
    requires |words| == |db|
    requires WellFormedRows(rows) && IndexConsistent(rows, words, db)
    ensures AllFit(rows, words, db, Steps(rows, words, db))
  {
    forall k | 0 <= k < |words| ensures Fits(rows, words, db, k, Steps(rows, words, db)[k]) {
      StepFits(rows, words, db, k);
    }
  }

  /**
   Plan coverage: when every entry of the table fits, the plan from position
   `i` partitions `words[i..]` in order, without gaps or overlaps, into
   actions that each fit the words they consume.
   */
  lemma {:induction false} PlanCovers(rows: seq<WordRow>, words: seq<string>, db: seq<bool>, steps: seq<Action>, i: nat)
    requires i <= |words| == |db|
    requires AllFit(rows, words, db, steps) && Advances(steps)
    ensures Covers(rows, words, db, PlanFrom(steps, i), i)
    decreases |words| - i
  {
    if i < |words| {
      var plan := PlanFrom(steps, i);
      var a := steps[i];
      assert Fits(rows, words, db, i, a);
      var j := i + Span(a);
      PlanCovers(rows, words, db, steps, j);
      CoversCons(rows, words, db, a, PlanFrom(steps, j), i, plan);
    }
  }

  /** An action that fits, followed by a plan covering the rest, covers from the action's cursor. */
  lemma CoversCons(rows: seq<WordRow>, words: seq<string>, db: seq<bool>, a: Action, rest: seq<Action>, i: nat,
                   plan: seq<Action>)
    requires |words| == |db| && |plan| > 0 && plan[0] == a && plan[1..] == rest
    requires Fits(rows, words, db, i, a) && Covers(rows, words, db, rest, i + Span(a))
    ensures Covers(rows, words, db, plan, i)
  {
  }

  /**
   A `sythesize` action swallows a maximal run, so in a covering plan the
   action after a `sythesize` action is never another one.
   */
  lemma {:induction false} NoAdjacentSynthesize(rows: seq<WordRow>, words: seq<string>, db: seq<bool>,
                                                plan: seq<Action>, i: nat)
    requires |words| == |db|
    requires Covers(rows, words, db, plan, i)
    ensures forall k, l :: 0 <= k && l == k + 1 && l < |plan| && plan[k].Synthesize? ==> !plan[l].Synthesize?
    decreases |plan|
  {
    if |plan| > 0 {
      var rest := plan[1..];
      var j := i + Span(plan[0]);
      NoAdjacentSynthesize(rows, words, db, rest, j);
      if plan[0].Synthesize? && |rest| > 0 {
        assert Fits(rows, words, db, j, rest[0]);
        assert db[j];
      }
      forall k, l | 0 <= k && l == k + 1 && l < |plan| && plan[k].Synthesize?
        ensures !plan[l].Synthesize?
      {
        if k > 0 {
          assert plan[k] == rest[k - 1] && plan[l] == rest[l - 1];
        }
      }
    }
  }

  /**
   On well-formed rows, a caption that is exactly the `m` query words from `i`,
   all in the corpus, shows up at level `m - 1` of the range list from `i` as a
   row recording `m` tokens.
   */
  lemma ExactCaptionReachesLevel(rows: seq<WordRow>, words: seq<string>, db: seq<bool>, i: nat,
                                 ranges: seq<Level>, cid: nat, m: nat)
    requires i + m <= |words| == |db| && m >= 1
    requires IsRangeList(rows, words, db, i, ranges) && StopsWhenStuck(rows, words, db, i, ranges)
    requires WellFormedRows(rows)
    requires AllInCorpus(db, i, i + m)
    requires ExactCaption(rows, cid, words[i..i + m])
    ensures m - 1 < |ranges| && ExactAt(ranges, m - 1)
  {
    var ws := words[i..i + m];
    assert Occurs(rows, cid, m - 1, ws[m - 1]);
    var y :| y in rows && y.captionId == cid && y.index == m - 1 && y.word == words[i + (m - 1)];
    var x :| x in rows && x.captionId == cid && x.length == m;
    assert y.length == m;
    SpellsPrefix(rows, cid, 0, words, i, m);
    RunReachesLevel(rows, words, db, i, ranges, cid, 0, m - 1, y);
  }

  /**
   The longest exact clip wins: when caption `cid` is exactly the `m` query
   words from `i` and all of them are in the corpus, the action at `i` is a
   clip of at least `m` words. In particular no `generate` action is emitted
   where a whole caption would do.
   */
  lemma LongestExactReuse(rows: seq<WordRow>, words: seq<string>, db: seq<bool>, i: nat, cid: nat, m: nat)
    requires i + m <= |words| == |db| && m >= 1
    requires WellFormedRows(rows)
    requires AllInCorpus(db, i, i + m)
    requires ExactCaption(rows, cid, words[i..i + m])
    ensures Step(rows, words, db, i).Clip?
    ensures Step(rows, words, db, i).size >= m
  {
    assert db[i];
    var ranges := MaxWordRange(rows, words, i, db);
    MaxWordRangeIsRangeList(rows, words, i, db);
    ExactCaptionReachesLevel(rows, words, db, i, ranges, cid, m);
  }

  /** The membership flag of each query word: does the corpus hold it? */
  function InCorpus(rows: seq<WordRow>, words: seq<string>): (db: seq<bool>)
    ensures |db| == |words|
    ensures forall k :: 0 <= k < |words| ==> (db[k] <==> HasWord(rows, words[k]))
  {
    var existing := FindExistingWords(rows, words);
    seq(|words|, k requires 0 <= k < |words| => words[k] in existing)
  }

  /**
   The query's words: the cleaned text with every '.' deleted, cut at single
   spaces. There is always at least one word, possibly empty.
   */
  function QueryWords(text: string): (words: seq<string>)
    ensures |words| >= 1
    ensures forall k :: 0 <= k < |words| ==> ' ' !in words[k]
    ensures Join(words, ' ') == Remove(Clean(text), '.')
  {
    Split(Remove(Clean(text), '.'), ' ')
  }

  /**
   `generate_action_plan(text)`: the plan for the words of the cleaned query,
   with the membership flags read off the same rows the matcher searches, so
   the flags are consistent and the loop ends with every word consumed.
   */
  function GenerateActionPlan(rows: seq<WordRow>, text: string): (plan: seq<Action>)
    ensures SpanSum(plan) == |QueryWords(text)|
    ensures forall k :: 0 <= k < |plan| ==> Span(plan[k]) >= 1
  {
    PlanFor(rows, QueryWords(text))
  }

  /** The plan for an already cleaned word list, its flags read off the rows. */
  function PlanFor(rows: seq<WordRow>, words: seq<string>): (plan: seq<Action>)
    ensures SpanSum(plan) == |words|
    ensures forall k :: 0 <= k < |plan| ==> Span(plan[k]) >= 1
  {
    var db := InCorpus(rows, words);
    StepsAdvance(rows, words, db);
    PlanFrom(Steps(rows, words, db), 0)
  }

  /** On well-formed rows the plan for a query covers its words in order. */
  lemma GenerateActionPlanCovers(rows: seq<WordRow>, text: string)
    requires WellFormedRows(rows)
    ensures Covers(rows, QueryWords(text), InCorpus(rows, QueryWords(text)), GenerateActionPlan(rows, text), 0)
  {
    var words := QueryWords(text);
    var db := InCorpus(rows, words);
    StepsAdvance(rows, words, db);
    StepsFit(rows, words, db);
    PlanCovers(rows, words, db, Steps(rows, words, db), 0);
  }

  /**
   Querying a stored caption's text with the periods deleted yields exactly
   the tokens its word rows carry, in order.
   */
  lemma QueryWordsOfStoredCaption(c: Caption)
    requires IsNormalised(c) && c.text != ""
    ensures QueryWords(c.rawText) == RowWords(WordRows(c.id, c.text))
  {
    RemoveThenSplit(c.text, '.', ' ');
    var own := WordRows(c.id, c.text);
    assert |RowWords(own)| == |Split(c.text, ' ')|;
  }

  /** In a store that keeps its invariant, every stored caption is, token for token, its own word rows. */
  lemma StoredCaptionIsExact(st: Store, m: nat)
    requires StoreInv(st) && m < |st.captions| && st.captions[m].text != ""
    ensures var c := st.captions[m];
            && ExactCaption(st.words, c.id, RowWords(WordRows(c.id, c.text)))
            && forall k :: 0 <= k < |WordRows(c.id, c.text)| ==> HasWord(st.words, WordRows(c.id, c.text)[k].word)
  {
    var c := st.captions[m];
    CaptionRowsStored(st.captions, m);
    StoredRowsAreExact(st.words, c.id, c.text);
  }

  lemma StoredRowsAreExact(rows: seq<WordRow>, id: nat, text: string)
    requires text != "" && forall x :: x in WordRows(id, text) ==> x in rows
    ensures && ExactCaption(rows, id, RowWords(WordRows(id, text)))
            && forall k :: 0 <= k < |WordRows(id, text)| ==> HasWord(rows, WordRows(id, text)[k].word)
  {
    var own := WordRows(id, text);
    var ws := RowWords(own);
    forall e | 0 <= e < |ws| ensures Occurs(rows, id, e, ws[e]) {
      assert own[e] in rows;
    }
    assert own[0] in rows;
  }

  /**
   When one caption is exactly the whole query and the corpus holds every
   query word, the plan is that single clip.
   */
  lemma WholeQueryIsOneClip(rows: seq<WordRow>, words: seq<string>, cid: nat)
    requires |words| >= 1 && WellFormedRows(rows)
    requires forall k :: 0 <= k < |words| ==> HasWord(rows, words[k])
    requires ExactCaption(rows, cid, words)
    ensures var plan := PlanFor(rows, words);
            |plan| == 1 && plan[0].Clip? && plan[0].size == |words|
  {
    var n := |words|;
    var db := InCorpus(rows, words);
    assert words[0..n] == words;
    assert AllInCorpus(db, 0, n);
    LongestExactReuse(rows, words, db, 0, cid, n);
    var steps := Steps(rows, words, db);
    StepsAdvance(rows, words, db);
    var plan := PlanFrom(steps, 0);
    assert plan == [steps[0]] + PlanFrom(steps, n);
  }

  /** The query made of a stored caption's raw text is that caption, token for token, and the corpus holds every word. */
  lemma StoredCaptionQuery(st: Store, m: nat)
    requires StoreInv(st) && m < |st.captions| && st.captions[m].text != ""
    ensures var c := st.captions[m];
            var words := QueryWords(c.rawText);
            && |words| == TokenCount(c.text)
            && ExactCaption(st.words, c.id, words)
            && forall k :: 0 <= k < |words| ==> HasWord(st.words, words[k])
  {
    var c := st.captions[m];
    assert IsNormalised(c);
    StoredCaptionIsExact(st, m);
    QueryWordsOfStoredCaption(c);
  }

  /**
   A query made of a stored caption's own raw text is answered by one clip of
   its full length: the caption itself, or an earlier caption with the same
   tokens. Nothing is synthesised and nothing is left to generate.
   */
  lemma SelfQuery(st: Store, m: nat)
    requires StoreInv(st) && m < |st.captions| && st.captions[m].text != ""
    ensures var c := st.captions[m];
            var plan := GenerateActionPlan(st.words, c.rawText);
            |plan| == 1 && plan[0].Clip? && plan[0].size == TokenCount(c.text)
  {
    var c := st.captions[m];
    StoreRowsWellFormed(st);
    StoredCaptionQuery(st, m);
    WholeQueryIsOneClip(st.words, QueryWords(c.rawText), c.id);
  }
}

=== FILE: seqs.dfy ===
/**
 Four facts about sequence concatenation, stated on names so that a proof can
 use them without the solver unfolding what the names stand for.
 */
module Seqs {

  /** Peeling the first element off `a`, alone and in front of `b`. */
  lemma SplitFirst<T>(a: seq<T>, b: seq<T>)
    requires |a| > 0
    ensures a == [a[0]] + a[1..] && a + b == [a[0]] + (a[1..] + b)
  {
  }

  /** The head and the tail of `[x] + rest`, where the cons has been given a name. */
  lemma ConsParts<T>(whole: seq<T>, x: T, rest: seq<T>)
    requires whole == [x] + rest
    ensures |whole| > 0 && whole[0] == x && whole[1..] == rest
  {
  }

  /** A slice of `s[m..]` is the slice of `s` shifted by `m`. */
  lemma DropSlice<T>(s: seq<T>, m: nat, lo: nat, hi: nat)
    requires lo <= hi && m + hi <= |s|
    ensures s[m..][lo..hi] == s[m + lo..m + hi]
  {
  }

  /** `h + (x + y) == (h + x) + y`, where the three groupings have been given names. */
  lemma Regroup<T>(whole: seq<T>, left: seq<T>, rest: seq<T>, h: seq<T>, x: seq<T>, y: seq<T>)
    requires whole == h + rest && left == h + x && rest == x + y
    ensures whole == left + y
  {
  }
}

=== FILE: text.dfy ===
/**
 Python's string primitives the core leans on: `str.split(sep)` with a
 one-character separator, `sep.join(parts)` and `str.replace(c, '')`.
 */
module Text {

  /** Number of occurrences of `c` in `s`. */
  function Count(s: string, c: char): nat
  {
    if |s| == 0 then 0 else (if s[0] == c then 1 else 0) + Count(s[1..], c)
  }

  /** `sep.join(parts)`: the parts with one `sep` between neighbours. */
  function Join(parts: seq<string>, sep: char): string
  {
    if |parts| == 0 then ""
    else if |parts| == 1 then parts[0]
    else parts[0] + [sep] + Join(parts[1..], sep)
  }

  /**
   `s.split(sep)`: cuts `s` at every `sep`. The empty string gives one empty
   part and two neighbouring separators give an empty part between them.
   Joining the parts back gives `s`.
   */
  function Split(s: string, sep: char): (parts: seq<string>)
    ensures |parts| == Count(s, sep) + 1
    ensures forall k :: 0 <= k < |parts| ==> sep !in parts[k]
    ensures Join(parts, sep) == s
    decreases |s|
  {
    if |s| == 0 then [""]
    else
      var rest := Split(s[1..], sep);
      if s[0] == sep then
        assert ([""] + rest)[1..] == rest;
        [""] + rest
      else
        var parts := [[s[0]] + rest[0]] + rest[1..];
        assert parts[1..] == rest[1..];
        assert |rest| > 1 ==> Join(rest, sep) == rest[0] + [sep] + Join(rest[1..], sep);
        assert s == [s[0]] + s[1..];
        parts
  }

  /** A part without separators splits into itself. */
  lemma {:induction false} SplitNoSeparator(p: string, sep: char)
    requires sep !in p
    ensures Split(p, sep) == [p]
    decreases |p|
  {
    if |p| > 0 {
      assert sep !in p[1..];
      SplitNoSeparator(p[1..], sep);
      assert [p[0]] + p[1..] == p;
    }
  }

  /** Splitting `p + [sep] + rest` cuts at the first separator, right after `p`. */
  lemma {:induction false} SplitAfterPart(p: string, rest: string, sep: char)
    requires sep !in p
    ensures Split(p + [sep] + rest, sep) == [p] + Split(rest, sep)
    decreases |p|
  {
    var s := p + [sep] + rest;
    if |p| == 0 {
      assert s[1..] == rest;
    } else {
      assert s[1..] == p[1..] + [sep] + rest;
      assert sep !in p[1..];
      SplitAfterPart(p[1..], rest, sep);
      assert [p[0]] + p[1..] == p;
    }
  }

  /** Round trip the other way: parts free of `sep` survive a join followed by a split. */
  lemma {:induction false} SplitJoin(parts: seq<string>, sep: char)
    requires |parts| >= 1
    requires forall k :: 0 <= k < |parts| ==> sep !in parts[k]
    ensures Split(Join(parts, sep), sep) == parts
    decreases |parts|
  {
    if |parts| == 1 {
      SplitNoSeparator(parts[0], sep);
    } else {
      assert sep !in parts[0];
      SplitJoin(parts[1..], sep);
      SplitAfterPart(parts[0], Join(parts[1..], sep), sep);
      assert [parts[0]] + parts[1..] == parts;
    }
  }

  /** `s.replace(c, '')`: every `c` deleted, everything else kept in order. */
  function Remove(s: string, c: char): (r: string)
    ensures c !in r
    ensures |r| == |s| - Count(s, c)
    ensures forall x :: x != c ==> (x in r <==> x in s)
    decreases |s|
  {
    if |s| == 0 then ""
    else if s[0] == c then Remove(s[1..], c)
    else [s[0]] + Remove(s[1..], c)
  }

  /** Deletion works on the two halves of any cut independently, so what it keeps stays in order. */
  lemma {:induction false} RemoveAppend(a: string, b: string, c: char)
    ensures Remove(a + b, c) == Remove(a, c) + Remove(b, c)
    decreases |a|
  {
    if |a| == 0 {
      assert a + b == b;
    } else {
      assert (a + b)[0] == a[0];
      assert (a + b)[1..] == a[1..] + b;
      RemoveAppend(a[1..], b, c);
    }
  }

  /** `Remove` applied to each part. */
  function RemoveEach(parts: seq<string>, c: char): (r: seq<string>)
    ensures |r| == |parts|
    ensures forall k :: 0 <= k < |parts| ==> r[k] == Remove(parts[k], c)
  {
    seq(|parts|, k requires 0 <= k < |parts| => Remove(parts[k], c))
  }

  /**
   Deleting a character other than the separator commutes with splitting:
   deleting it from the whole string and then splitting gives the parts of the
   original, each with that character deleted.
   */
  lemma {:induction false} RemoveThenSplit(s: string, c: char, sep: char)
    requires c != sep
    ensures Split(Remove(s, c), sep) == RemoveEach(Split(s, sep), c)
    decreases |s|
  {
    if |s| > 0 {
      RemoveThenSplit(s[1..], c, sep);
      var rest := Split(s[1..], sep);
      if s[0] == c {
        assert Remove([s[0]] + rest[0], c) == Remove(rest[0], c) by {
          assert ([s[0]] + rest[0])[1..] == rest[0];
        }
      } else if s[0] == sep {
        assert Remove(s, c) == [sep] + Remove(s[1..], c);
      } else {
        var tail := Remove(s[1..], c);
        assert Remove(s, c) == [s[0]] + tail;
        assert ([s[0]] + tail)[1..] == tail;
        assert Remove([s[0]] + rest[0], c) == [s[0]] + Remove(rest[0], c) by {
          assert ([s[0]] + rest[0])[1..] == rest[0];
        }
      }
    }
  }
}

=== FILE: wrappers.dfy ===
/** The optional value the planner and the text passes return when a search finds nothing. */
module Wrappers {

  datatype Option<+T> = None | Some(value: T)
}
